=== FILE: README.md ===
# Rag-milvus ingestion core in Dafny

This project models the ingestion side of a retrieval-augmented-generation pipeline.
It proves properties of that model.

- **Loading.** A document is loaded from a file. Its extension picks a reader for PDF, TXT, JSON, CSV or TSV.
- **Chunking.** The document is split into chunks. CSV and TSV are packed row by row under a 2048-byte budget. JSON goes through a structural splitter with a sliding-window overlap. Other files go to one of four text splitters. Fragments shorter than 20 characters after stripping are dropped.
- **Export.** Chunks become flat seventeen-key export records. These are appended to an NDJSON file and inserted with `INSERT OR IGNORE` into a SQLite table, twenty files per batch. A failing file is skipped.
- **Vector store.** Chunks are submitted to the Milvus vector store in batches of fifty. The store can be searched, polled for statistics and connected to with bounded retries.

Foreign code appears as parameters, usually functions returning `Option` or `Result`:

- the PDF parser, file reads and pandas;
- the LangChain splitters;
- the `json.dumps` byte length;
- the vector store's `add_documents` and similarity search;
- the connection probe;
- the per-file processor.

An exception in foreign code is a `None` or a `Failure`.

Modules:

- `Results`: `Option`, `Result` and a `Sequence` of results.
- `Text`: Python's `strip`, `split`, `join`, lowering and UTF-8 length on `seq<char>`.
- `Paths`: pathlib's `suffix` and `stem`.
- `Batching`: `range(0, n, size)` slicing.
- `Models`: the pydantic records and enumerations.
  - The default configuration is `ProcessingConfig(RECURSIVE, 1024, 254, SENTENCE_TRANSFORMER)`.
  - A `Document` needs at least 50 characters of content and a `Chunk` at least 20.
- `Packing`: the greedy row packer.
- `Chunker`, `DocReader`, `BulkUpload` and `VectorStore` follow `chunker.py`, `doc_reader.py`, `bulk_upload.py` and `milvus.py`.

Behaviours of the code that a reader might not expect, and which the model keeps:

- **Chunk indices are not contiguous.** A chunk is numbered by its position in the splitter's unfiltered output (`src/project/chunker.py:173`), not by its position among the chunks kept. A dropped fragment therefore leaves a gap: see `Chunker.DroppedFragmentLeavesGap`. The export step then renumbers chunks by list position: see `BulkUpload.ExportRenumbers`.
- **Unknown extensions are accepted.** An extension that names no file type is read as TSV. The `raise ValueError(f"Unsupported file type: {ext}")` branch (`src/project/doc_reader.py:30-31`) shows that rejection was meant, but it cannot be reached: see the first finding below.
- **The tabular loader re-raises reader failures under one message shape.** The error is "Error loading <type>: <exception text>", where the exception text is the reader's own message.
- **The stored chunking method comes from the configuration.** Chunks from the JSON path record the configured chunking method, not JSON.

Two spellings of "tsv#" are harmless:

- `"tsv" or "tsv#"` in the enumeration (`src/project/pydantic_models.py:10`) evaluates to "tsv".
- The tuple test in `chunk_document` (`src/project/chunker.py:20`) can never see "tsv#".

## Model

| member | source | states |
|---|---|---|
| Results.Sequence | src/project/milvus.py:120-133 | Building a list of results succeeds iff every element succeeds. On success the values are kept in order. Otherwise the error is the first failing element's. |
| Text.Strip | src/project/chunker.py:168-172 | `str.strip()` is a slice of its input with only whitespace cut off before and after it. It is empty exactly when the input is all whitespace, and otherwise starts and ends with non-whitespace. |
| Text.WordCount | src/project/chunker.py:179 | `len(text.split())` is zero exactly when the text is all whitespace, and never exceeds its length. |
| Text.WordCountCountsStarts | src/project/bulk_upload.py:27 | `len(text.split())` is the number of positions where a non-whitespace character follows whitespace or the start of the text. |
| Text.Join | src/project/doc_reader.py:52 | The joined text starts with the first part and ends with the last. Its length is the parts' total plus one separator between neighbours. Joining nothing gives "". |
| Text.JoinParts | src/project/doc_reader.py:52 | In `sep.join(xs)`, part k starts right after parts 0..k-1 and one separator after each. A separator follows every part but the last, and the text ends with the last part. |
| Text.JoinedAtIsJoin | src/project/doc_reader.py:52 | That layout determines the text: any string with every part and separator in those places is `sep.join(xs)`. |
| Text.NatToStringInjective | src/project/chunker.py:170 | Different chunk positions print as different decimal strings. |
| Models.FileTypeValues | src/project/pydantic_models.py:5-10 | The five file types have five distinct values. Lookup by value inverts `.value`. No member has the value "tsv#". |
| Models.ChunkingMethodValues | src/project/pydantic_models.py:13-18 | The five chunking methods have distinct values, and lookup by value inverts `.value`. |
| Models.MkDocument | src/project/pydantic_models.py:30-35 | A document is accepted iff its content has at least 50 characters. Otherwise the content field fails validation. |
| Models.MkChunk | src/project/pydantic_models.py:37-44 | A chunk is accepted iff its content has at least 20 characters. Its fields are the arguments and its embedding starts absent. |
| Models.ValidateChunk | src/project/pydantic_models.py:37-44 | Keyword construction succeeds iff id, doc_id, chunk_index and a known chunking method are all supplied with the right types and the content is long enough. On success doc_id is the one passed. |
| Models.ChunkAttribute | src/project/pydantic_models.py:37-44 | Reading an attribute succeeds iff the chunk model declares it. `doc_id` and `id` read back the stored values; any other name raises AttributeError. |
| Models.ChunkIdInjective | src/project/bulk_upload.py:22 | Within a document, `{doc_id}_chunk_{i}` identifiers of different positions differ. |
| Batching.SlicesPartition | src/project/bulk_upload.py:86-87 | The batches concatenate back to the list. Each holds 1..size items, all but the last hold exactly size, and there are none iff the list is empty. |
| Batching.SlicesAligned | src/project/milvus.py:96-99 | Slicing two equally long lists (documents and ids) gives equally many batches of matching lengths. |
| Packing.PackRows | src/project/chunker.py:52-94 | The row groups tile the rows in order without gaps. Each group fits the budget or is a single row. Each group is closed only because the next row would overflow it. |
| Packing.GreedyUnique | src/project/chunker.py:56-77 | There is only one tiling with that greedy property, so the packing is determined by the row sizes and the budget. |
| Packing.TilesTail | src/project/chunker.py:73-77 | After the first group of a tiling, the rest tile the rows from where that group ends. |
| Packing.GroupsConcat | src/project/chunker.py:73-77 | Concatenating the row groups of a tiling gives back every row in order. |
| Chunker.TabularChunk | src/project/chunker.py:57-93 | A tabular chunk's text is the JSON dump of exactly its rows. Its metadata names the document title, the type value and the columns, and records the row range. It is named and indexed by its first row and uses the recursive method. It fails validation iff that text is under 20 characters. |
| Chunker.TabularChunksPartition | src/project/chunker.py:52-94 | Tabular chunks cover the rows in order. Each chunk's text is the JSON dump of the rows of its recorded range. Each chunk's recorded `row_end + 1` is the next chunk's `row_start`. Every chunk except a single oversized row fits in 2048 bytes. |
| Chunker.TabularChunkContents | src/project/chunker.py:57-93 | Chunk k of a packed table holds the JSON dump of the rows of group k. It names the document title, the type value and the generated column names. |
| Chunker.TenRowsOfThreeHundredBytes | src/project/chunker.py:46-56 | Ten rows of 300 bytes pack into rows 0-5 (1800 bytes) and rows 6-9, because a seventh row would exceed 2048 bytes. |
| Chunker.TabularChunks | src/project/chunker.py:38-45 | The table is read with "," for CSV and a tab for TSV. A reader failure is passed on unchanged; otherwise the chunks are those packed from its rows. |
| Chunker.TabularChunkFields | src/project/chunker.py:52-94 | There is one chunk per row group. Each is indexed and named by the group's first row, records that row as `row_start` and the group's last row as its end, and uses the recursive method. |
| Chunker.TabularChunksOfWellFormed | src/project/chunker.py:52-95 | Chunks packed from a table are valid chunks of the document, without embeddings, in strictly increasing index order. |
| Chunker.TabularWellFormed | src/project/chunker.py:38-95 | Whatever the reader returns, successful tabular chunking gives valid chunks of the document, without embeddings, in strictly increasing index order. |
| Chunker.Positions | src/project/chunker.py:167-168 | The positions picked are flagged, lie in range and strictly increase. |
| Chunker.KeptIndices | src/project/chunker.py:167-168 | The kept positions are those below the bound whose stripped text has at least 20 characters: each listed one is, every such one is listed, in increasing order. |
| Chunker.IndexChunks | src/project/chunker.py:165-183 | Fragments pair with metadata up to the shorter list. Each chunk holds a kept fragment, stripped, with its unfiltered position as index and id, that position's metadata and the configured method, and is valid. Indices strictly increase. |
| Chunker.IndexChunksExactly | src/project/chunker.py:167-183 | A paired fragment becomes a chunk iff its stripped text has at least 20 characters. |
| Chunker.CreateChunks | src/project/chunker.py:165-183 | Every chunk holds a kept fragment, stripped, at its unfiltered position, with the base metadata of that fragment. Indices strictly increase and there are no more chunks than fragments. |
| Chunker.CreateChunksExactly | src/project/chunker.py:165-183 | A fragment becomes a chunk iff its stripped length is at least 20. That chunk's `chunk_size` and `word_count` describe the unstripped fragment. |
| Chunker.JsonMetadata | src/project/chunker.py:190-197 | The split's own metadata wins over the base keys. `json_path` is the split's `path`, or an empty list when there is none. |
| Chunker.CreateChunksJson | src/project/chunker.py:186-207 | Fragments pair with metadata up to the shorter list. Each chunk holds a kept fragment with the merged metadata of its position and the configured, not the JSON, method. Indices strictly increase. |
| Chunker.CreateChunksJsonExactly | src/project/chunker.py:186-207 | A paired fragment becomes a chunk iff it is kept, and that chunk's metadata merges the base keys with the split's own. |
| Chunker.Window | src/project/chunker.py:113-117 | Overlapped split `idx` is splits `max(0, idx - window)` to `idx`, each at its join position with one space between neighbours. |
| Chunker.Overlap | src/project/chunker.py:108-119 | The overlap keeps the number of splits. It changes nothing unless the window is positive and there are two or more splits. Otherwise element `idx` lays out splits `max(0, idx - window)` to `idx` joined by single spaces. |
| Chunker.OverlapWindowOne | src/project/chunker.py:113-117 | With window 1, every split after the first is its predecessor, a space, then itself. |
| Chunker.OverlapWindowTwo | src/project/chunker.py:113-117 | With window 2, every split from the third on is the two before it and itself, separated by spaces. |
| Chunker.JsonChunks | src/project/chunker.py:98-124 | A failing JSON splitter falls back to recursive text splitting. Otherwise the overlapped split texts and the splits' metadata are turned into chunks. Any success is well formed. |
| Chunker.JsonChunksFromSplits | src/project/chunker.py:98-124 | When the JSON splitter succeeds, so does chunking. Every chunk is the stripped overlapped split at its index, with that split's merged metadata and the configured method, and there are no more chunks than splits. |
| Chunker.TextChunks | src/project/chunker.py:127-162 | Splitting fails iff the text splitter fails, with its error. Otherwise the chunks are exactly `_create_chunks` of the fragments: each kept fragment, stripped, at its index, with its base metadata, id and the method. |
| Chunker.FileTypeRoute | src/project/chunker.py:20-23 | A type's value is in the tabular tuple iff it is CSV or TSV, and is "json" iff it is JSON. |
| Chunker.MethodChunks | src/project/chunker.py:24-33 | The JSON method is rejected as unknown. Every other method runs its own text splitter. |
| Chunker.ChunkDocument | src/project/chunker.py:18-35 | Routing:<br>- CSV and TSV take the tabular path whatever the method.<br>- JSON takes the JSON path.<br>- Other types use the configured splitter, and the JSON method fails as unknown.<br>Any success is well formed. |
| Chunker.OnlySecondKept | src/project/chunker.py:165-183 | Of two fragments, when only the second is kept, the single chunk has index 1. |
| Chunker.DroppedFragmentLeavesGap | src/project/chunker.py:165-183 | A short fragment followed by a long one gives one chunk, with index 1: indices are not contiguous. |
| Paths.StemSuffixName | src/project/doc_reader.py:57 | The title (stem) followed by the suffix is the file name. |
| DocReader.Extension | src/project/doc_reader.py:17 | The extension is the lower-cased suffix without its dot, or empty when there is no suffix. |
| DocReader.DetectFileType | src/project/doc_reader.py:20-31 | As written: pdf, txt, json and csv map to their own types iff the extension is that string. Every other extension, known or not, maps to TSV. It never fails. |
| DocReader.UnknownExtensionReadAsTsv | src/project/doc_reader.py:28-31 | "docx" names no file type, yet it is accepted as TSV. |
| DocReader.DetectFileTypeIntended | src/project/doc_reader.py:20-31 | The mapping succeeds iff the extension is one of the five values, and returns the type with that value. Otherwise the extension is unsupported. |
| DocReader.DetectFileTypeAgreement | src/project/doc_reader.py:20-29 | Both mappings send each type's value to that type, and they agree wherever the intended one succeeds. |
| DocReader.LoadPdf | src/project/doc_reader.py:49-61 | A readable PDF loads iff its joined page text has at least 50 characters. The content holds every page text in order, with one newline between neighbours and nothing else. The metadata is the first page's. A PDF without pages fails document validation. |
| DocReader.LoadRaw | src/project/doc_reader.py:64-89 | TXT and JSON keep the file text verbatim with `source` metadata. They succeed iff the text has at least 50 characters. |
| DocReader.LoadTable | src/project/doc_reader.py:92-110 | The table is read with "," for CSV and a tab otherwise. A reader failure becomes "Error loading <type>: <exception text>". A parsed table loads iff its text has at least 50 characters. The content is that text, and the metadata holds the source and the comma-joined columns. |
| DocReader.LoadAs | src/project/doc_reader.py:36-46 | PDF goes to the PDF reader, TXT and JSON to the raw reader, and CSV and TSV to the table reader. A loaded document has the routed type, id and stem title, and is valid. |
| DocReader.LoadDocument | src/project/doc_reader.py:11-46 | A missing file is reported before anything else. An existing file is loaded by the reader for its detected type. A loaded document has the detected type and is valid. Loading never reports an unsupported type. |
| DocReader.ReadablePdfLoads | src/project/doc_reader.py:49-61 | An existing PDF whose joined page text has at least 50 characters loads, with exactly that text and the first page's metadata. |
| DocReader.ReadableTableLoads | src/project/doc_reader.py:92-110 | An existing CSV or TSV file that parses into a table with at least 50 characters of text loads. The document holds that text, the path and the columns. |
| DocReader.LoadDocumentIntended | src/project/doc_reader.py:11-46 | With the intended mapping, an existing file whose extension names no type is rejected as unsupported. A loaded document's type value equals its extension. |
| DocReader.LoadersAgreeOnKnownTypes | src/project/doc_reader.py:19-31 | The two loaders differ only on existing files whose extension names no type. |
| DocReader.DocxGoesToTsvReader | src/project/doc_reader.py:28-44 | An existing "notes.docx" is rejected by the intended loader but handed to the TSV reader as written. |
| BulkUpload.Select | src/project/bulk_upload.py:16 | A comprehension with a condition keeps exactly the elements that meet it and never grows the list. |
| BulkUpload.SelectAppend | src/project/bulk_upload.py:16 | Filtering two lists in turn is filtering their concatenation. |
| BulkUpload.SelectIdempotent | src/project/bulk_upload.py:16 | Filtering a filtered list again changes nothing. |
| BulkUpload.Filter | src/project/bulk_upload.py:16 | A path is listed iff it is walked and its lower-cased suffix is an allowed extension. |
| BulkUpload.FilterAppend | src/project/bulk_upload.py:16 | Listing preserves walk order: listing two runs is listing each in turn. |
| BulkUpload.FilterIdempotent | src/project/bulk_upload.py:16 | Listing an already listed sequence changes nothing. |
| BulkUpload.GetAllFiles | src/project/bulk_upload.py:14-16 | An empty extension list means the default four. A file is listed iff its suffix is allowed. |
| BulkUpload.PdfNeverListed | src/project/bulk_upload.py:15-16 | With the defaults a PDF is never ingested, whatever the case of its suffix. |
| BulkUpload.ListedFilesHaveKnownTypes | src/project/bulk_upload.py:14-16 | Every listed file has a known type, so bulk ingestion never meets the loader's unknown-extension defect. |
| BulkUpload.ConvertChunks | src/project/bulk_upload.py:18-40 | Records are renumbered 0..n-1 with ids `{doc}_chunk_{i}`. They keep text, size and embedding. Tokens are the text's word count, zero iff the text is blank. Method and type values read back as the enums. The fixed fields are 50, "general", the all-mpnet-base-v2 model name and absent. |
| BulkUpload.ConvertedIdsDistinct | src/project/bulk_upload.py:20-24 | The records of one document have pairwise distinct chunk ids. |
| BulkUpload.ExportRenumbers | src/project/bulk_upload.py:20-24 | A chunk the chunker numbered 1 is exported with index 0. |
| BulkUpload.Project | src/project/bulk_upload.py:45-51 | An NDJSON line has one field per export key. |
| BulkUpload.ProjectKeys | src/project/bulk_upload.py:45-51 | An NDJSON line carries exactly the seventeen export keys, in order. |
| BulkUpload.ProjectRoundTrip | src/project/bulk_upload.py:42-52 | A record can be read back unchanged from its NDJSON line. |
| BulkUpload.AppendNdjson | src/project/bulk_upload.py:42-52 | Appending keeps the existing lines and adds one line per record, each reading back as its record. |
| BulkUpload.LinesRoundTrip | src/project/bulk_upload.py:42-52 | Every line of a written run of records reads back as the record at that position. |
| BulkUpload.InsertAll | src/project/bulk_upload.py:69-74 | `INSERT OR IGNORE` never changes an existing row, and every inserted id is present afterwards. |
| BulkUpload.InsertOnlyGiven | src/project/bulk_upload.py:69-74 | A key new to the table after the insert is the id of some inserted record. |
| BulkUpload.InsertFirstWins | src/project/bulk_upload.py:69-74 | For an id new to the table, the first record carrying it is the one stored. |
| BulkUpload.InsertPresent | src/project/bulk_upload.py:69-74 | Inserting records whose ids are all present leaves the table unchanged. |
| BulkUpload.InsertIdempotent | src/project/bulk_upload.py:69-74 | Re-running the same insert changes nothing. |
| BulkUpload.InsertAppend | src/project/bulk_upload.py:69-74 | Two inserts in sequence equal one insert of the concatenation. |
| BulkUpload.NewDocumentStoredInFull | src/project/bulk_upload.py:54-77 | A document whose ids are new to the table has every record stored as exported. |
| BulkUpload.AllRecordsAppend | src/project/bulk_upload.py:86-94 | The records of two runs of files are those of the first followed by those of the second. |
| BulkUpload.FailingFileIsolated | src/project/bulk_upload.py:89-96 | A file whose processing raises contributes nothing, and removing it changes no other file's records. |
| BulkUpload.ProcessBatch | src/project/bulk_upload.py:88-96 | A batch's records are its files' records in file order, skipping files that raise. |
| BulkUpload.WriteBatch | src/project/bulk_upload.py:97-99 | A batch appends and inserts its records, and writes iff it has at least one record. |
| BulkUpload.RunStep | src/project/bulk_upload.py:86-99 | One more batch extends the records so far by the batch's records, appends their lines, and inserts them on top of the earlier inserts. |
| BulkUpload.RunBulk | src/project/bulk_upload.py:79-101 | The NDJSON file starts empty. A run leaves it holding every record of every file in order, and the table holds their insert-or-ignore. Exactly the batches with a record write. |
| VectorStore.KeptAppend | src/project/milvus.py:96-105 | What survives skipping failed batches distributes over concatenation of batches. |
| VectorStore.SubmitSkipping | src/project/milvus.py:96-105 | `insert_chunks` submits every batch of 50. The store gains exactly the accepted batches, in order. |
| VectorStore.FirstFailure | src/project/milvus.py:135-139 | Every batch before the first rejected one is accepted. |
| VectorStore.FirstFailureAt | src/project/milvus.py:135-139 | When the batches before k are accepted and batch k (if any) is rejected, the first failure is at k. |
| VectorStore.SubmitAborting | src/project/milvus.py:135-139 | `store_chunks` stops at the first rejected batch. The store gains exactly the batches before it, and an error is reported iff some batch is rejected. |
| VectorStore.AbortingIsPrefixOfSkipping | src/project/milvus.py:96-139 | What the aborting loop stores is a prefix of what the skipping loop stores. The two are equal when nothing fails. |
| VectorStore.AllBatchesAccepted | src/project/milvus.py:96-105 | When every batch is accepted, all entries are stored in order. |
| VectorStore.OneFailedBatchLosesOnlyItself | src/project/milvus.py:96-105 | If only batch k fails, exactly entries 50k..50k+49 (or fewer, at the end) are lost. |
| VectorStore.Get | src/project/milvus.py:79-86 | `dict.get` returns the stored value, or the default when the key is absent. |
| VectorStore.InsertMetadata | src/project/milvus.py:78-87 | The stored metadata has exactly eight keys. `chunk_method`, `content_type` and `chunk_tokens` are renamed, and a missing word count defaults to 0. The id, document id, index, domain and model are copied, or null when missing. |
| VectorStore.InsertEntry | src/project/milvus.py:76-94 | A record without `chunk_text` raises KeyError. Otherwise its text and cleaned metadata are stored under its chunk id. |
| VectorStore.InsertChunks | src/project/milvus.py:68-107 | Every record is converted before any submission, so one bad record submits nothing. Otherwise the entries are submitted in batches of 50 and failed batches are skipped. |
| VectorStore.StoreEntryAsWritten | src/project/milvus.py:120-133 | As written, building any store document raises AttributeError on `document_id`. |
| VectorStore.StoreEntry | src/project/milvus.py:120-133 | Corrected: the store document carries the chunk text, its id and six metadata keys, with `document_id` equal to the chunk's `doc_id`. |
| VectorStore.StoreChunksAsWritten | src/project/milvus.py:111-140 | As written, storing no chunks does nothing. Storing any chunk raises before anything is submitted. |
| VectorStore.StoreChunks | src/project/milvus.py:111-140 | Corrected: one entry per chunk, in order, submitted in batches of 50 until the first rejected batch. |
| VectorStore.HitChunkAsWritten | src/project/milvus.py:156-163 | As written, the hit's chunk never validates, because `doc_id` is passed under an undeclared name. |
| VectorStore.HitChunk | src/project/milvus.py:156-163 | Corrected: a hit validates iff its chunk id and document id (or their defaults) are strings, its index an integer, its method a known value, and its text has at least 20 characters. The chunk then holds those values and the hit's text and metadata. |
| VectorStore.Rank | src/project/milvus.py:152-174 | Results are ranked 1, 2, ... in the store's order, with distance `1 - similarity`. Any chunk that fails to build empties the whole result. |
| VectorStore.SearchByTextAsWritten | src/project/milvus.py:143-174 | As written, search returns nothing whatever the store finds. |
| VectorStore.SearchByText | src/project/milvus.py:143-174 | Corrected: a raising search gives []. When every hit validates, there is one result per hit, ranked 1, 2, ... in the store's order, holding that hit's chunk, its document id and distance `1 - score`. The result is empty for non-empty hits iff some hit fails to validate. |
| VectorStore.StoredChunkFoundAgain | src/project/milvus.py:121-163 | A chunk stored by the corrected `store_chunks` and found by the corrected search comes back with its id, document, text, index and method. |
| VectorStore.SearchAsWrittenDropsStoredChunk | src/project/milvus.py:143-174 | For one stored valid chunk, the search as written returns nothing. The corrected search returns one result of rank 1 carrying the chunk's id, document id and text. |
| VectorStore.WaitForStore | src/project/milvus.py:13-25 | Connecting succeeds iff some attempt below the maximum returns a usable address. Failure is "Milvus connection failed". A sleep follows exactly the raising attempts that are not the last and precede success. |
| VectorStore.GetStats | src/project/milvus.py:177-192 | `total_chunks` is the entity count iff connected with the collection present, and 0 otherwise. The status is "ready" exactly then. An error is reported exactly when a step raised, and it is that exception's message. |

## Left out

- **PDF parsing, file reads and pandas.** `PyPDFLoader`, file reading, `pd.read_csv` and `to_csv` are parameters, because they are foreign libraries. A raised exception is `None`.
- **Splitters and JSON serialisation.** The four LangChain text splitters, `RecursiveJsonSplitter` and `json.dumps` are parameters, because they are foreign libraries. Only the byte length of a dumped row enters the packing.
- **Document id.** The eight-character uuid prefix is a parameter, because it is randomness.
- **Directory walk.** `Path.rglob` is the list of walked paths, because it is file-system I/O.
- **Sleeping.** `time.sleep` is recorded as the list of attempts after which a sleep happens, because it is a clock.
- **Printing.** Every `print` is left out, because it is console output.
- **Vector-store I/O.** Vector-store calls are parameters, because they are network I/O: `add_documents` as an accept-or-reject verdict per batch, similarity search as an optional hit list, and the collection probe as a value.
- **File and database writes.** Deleting and appending the NDJSON file and the SQLite connection are state in the model, a list of lines and a map keyed by `chunk_id`, because they are I/O.
- **Embedding bytes in SQLite.** The embedding stored in SQLite is kept as the vector, not as its float32 bytes, because it is floating point.
- **NDJSON line text.** An NDJSON line is its ordered key-value pairs, not the serialised text, because that text is produced by `json.dumps`.
- **POSIX paths only.** File names, suffixes and stems split at `/` only. On Windows, pathlib also splits at `\`, so a title taken from a path such as the `D:\...` data directory (`src/project/bulk_upload.py:9`) can differ. This is platform behaviour of pathlib.
- **Non-ASCII lowering.** Lower-casing of suffixes is ASCII only; non-ASCII case mapping is not modelled, because it needs Unicode tables.
- **Embedding, orchestration and tooling.** The embedding service, the per-file processor, the storage manager, the query engine, schema setup scripts and command-line drivers are not part of this model. The processor appears only as the per-file function of the bulk run.
- **Store setup and clearing.** `setup_schema`, `get_client` and `clear_all_data` are left out, because they only configure or drop the remote collection.
- **Batch failures.** A rejected batch is all or nothing: partial inserts inside one `add_documents` call are not modelled, because that depends on the store.
- **Floating-point scores.** Similarity scores and distances are reals, so `Rank`'s `distance == 1.0 - score` is exact. The binary rounding of `float(score)` and `1.0 - similarity_score` (`src/project/milvus.py:154-155`) is not modelled.
- **Numeric coercion.** pydantic's coercion of numeric strings to `int` is not modelled: a hit's `chunk_index` validates only when it is an integer.
- **Tabular chunk size.** The tabular chunker ignores `chunk_size`, `chunk_overlap` and the method. The model does too.
- BulkUpload.RunBulk: the parameter for the previous NDJSON contents is ignored, because the file is deleted before the run.

## Findings

| source | as written | input that shows it | evidently intended | confidence | as-written member | corrected member |
|---|---|---|---|---|---|---|
| src/project/doc_reader.py:28 | `elif ext == "tsv" or "tsv#"` is always true, because "tsv#" is truthy | an existing file "notes.docx" is sent to the TSV reader (`DocReader.DocxGoesToTsvReader`) | accept only the five type values and raise "Unsupported file type" otherwise | high, not executed | DocReader.DetectFileType | DocReader.DetectFileTypeIntended |
| src/project/milvus.py:125 | the metadata reads `chunk.document_id`, which the chunk model does not declare | any non-empty chunk list raises AttributeError before anything is stored (`VectorStore.StoreEntryAsWritten`) | read `chunk.doc_id` | high, not executed | VectorStore.StoreChunksAsWritten | VectorStore.StoreChunks |
| src/project/milvus.py:158 | the chunk is built with `document_id=`, an undeclared keyword that is ignored, so the required `doc_id` is missing and validation raises inside the handler | one stored valid chunk with any score gives `[]` (`VectorStore.SearchAsWrittenDropsStoredChunk`) | pass `doc_id=` | high, not executed | VectorStore.SearchByTextAsWritten | VectorStore.SearchByText |

The per-file processor stores each document's chunks through `store_chunks` (`src/project/processor.py:35`). With the second finding, every file that yields at least one chunk therefore raises inside the bulk loop and is skipped. The model keeps the per-file processor as a parameter, so this consequence is not proved here.

=== FILE: batching.dfy ===
/** Fixed-size slicing, the one batching scheme the pipeline uses: the slices
    `xs[start:start+size]` for `start in range(0, len(xs), size)`. Bulk ingestion
    slices files by 20 and the vector-store adapter slices documents by 50. */
module Batching {

  function Min(a: nat, b: nat): nat {
    if a <= b then a else b
  }

  function Flatten<T>(xss: seq<seq<T>>): seq<T> {
    if xss == [] then [] else xss[0] + Flatten(xss[1..])
  }

  lemma FlattenAppend<T>(xss: seq<seq<T>>, yss: seq<seq<T>>)
    ensures Flatten(xss + yss) == Flatten(xss) + Flatten(yss)
  {
    if xss == [] {
      assert xss + yss == yss;
    } else {
      assert (xss + yss)[1..] == xss[1..] + yss;
      FlattenAppend(xss[1..], yss);
    }
  }

  /** Concatenation is associative; stated once for any element type so that proofs about
      sequences of large records need not rediscover it. */
  lemma AppendAssoc<T>(x: seq<T>, y: seq<T>, z: seq<T>)
    ensures x + y + z == x + (y + z)
  {
  }

  /** The flattening splits around any one element. */
  lemma FlattenAround<T>(xss: seq<seq<T>>, k: nat)
    requires k < |xss|
    ensures Flatten(xss) == Flatten(xss[..k]) + (xss[k] + Flatten(xss[k + 1..]))
  {
    var suffix := xss[k..];
    assert xss == xss[..k] + suffix;
    FlattenAppend(xss[..k], suffix);
    assert suffix[0] == xss[k] && suffix[1..] == xss[k + 1..];
  }

  /** Flattening one more element of a prefix appends that element. */
  lemma FlattenSnoc<T>(xss: seq<seq<T>>, k: nat)
    requires k < |xss|
    ensures Flatten(xss[..k + 1]) == Flatten(xss[..k]) + xss[k]
  {
    assert xss[..k + 1] == xss[..k] + [xss[k]];
    FlattenAppend(xss[..k], [xss[k]]);
    assert Flatten([xss[k]]) == xss[k] + Flatten([]);
  }

  function Zip<A, B>(a: seq<A>, b: seq<B>): (r: seq<(A, B)>)
    requires |a| == |b|
    ensures |r| == |a|
  {
    seq(|a|, i requires 0 <= i < |a| => (a[i], b[i]))
  }

  /** The slices taken from position `start` on, stepping by `size`. */
  function SlicesFrom<T>(xs: seq<T>, size: nat, start: nat): (r: seq<seq<T>>)
    requires size > 0
    decreases |xs| - start
  {
    if start >= |xs| then []
    else [xs[start..Min(start + size, |xs|)]] + SlicesFrom(xs, size, start + size)
  }

  function Slices<T>(xs: seq<T>, size: nat): seq<seq<T>>
    requires size > 0
  {
    SlicesFrom(xs, size, 0)
  }

  /** Slicing from `start` covers `xs[start..]` exactly once, in order, with no empty
      slice, every slice but the last holding exactly `size` elements. */
  lemma {:induction false} SlicesFromPartition<T>(xs: seq<T>, size: nat, start: nat)
    requires size > 0
    requires start <= |xs|
    ensures Flatten(SlicesFrom(xs, size, start)) == xs[start..]
    ensures forall k :: 0 <= k < |SlicesFrom(xs, size, start)| ==> 0 < |SlicesFrom(xs, size, start)[k]| <= size
    ensures forall k :: 0 <= k < |SlicesFrom(xs, size, start)| - 1 ==> |SlicesFrom(xs, size, start)[k]| == size
    decreases |xs| - start
  {
    var r := SlicesFrom(xs, size, start);
    if start < |xs| {
      var next := Min(start + size, |xs|);
      SlicesFromPartition(xs, size, next);
      var rest := SlicesFrom(xs, size, start + size);
      assert rest == SlicesFrom(xs, size, next);
      assert r == [xs[start..next]] + rest;
      assert r[1..] == rest;
      assert xs[start..] == xs[start..next] + xs[next..];
      assert rest != [] ==> next == start + size;
      forall k | 1 <= k < |r|
        ensures r[k] == rest[k - 1]
      {
      }
    }
  }

  /** Batching covers every element exactly once, in order; no batch is empty; every
      batch except possibly the last has exactly `size` elements; no input, no batch. */
  lemma SlicesPartition<T>(xs: seq<T>, size: nat)
    requires size > 0
    ensures Flatten(Slices(xs, size)) == xs
    ensures forall k :: 0 <= k < |Slices(xs, size)| ==> 0 < |Slices(xs, size)[k]| <= size
    ensures forall k :: 0 <= k < |Slices(xs, size)| - 1 ==> |Slices(xs, size)[k]| == size
    ensures Slices(xs, size) == [] <==> xs == []
  {
    SlicesFromPartition(xs, size, 0);
  }

  /** Slicing two equally long sequences separately gives aligned slices: slicing the
      pairs is the same as pairing the slices. */
  lemma {:induction false} SlicesFromAligned<A, B>(a: seq<A>, b: seq<B>, size: nat, start: nat)
    requires size > 0
    requires |a| == |b|
    ensures |SlicesFrom(a, size, start)| == |SlicesFrom(b, size, start)| == |SlicesFrom(Zip(a, b), size, start)|
    ensures forall k :: 0 <= k < |SlicesFrom(a, size, start)| ==>
              |SlicesFrom(a, size, start)[k]| == |SlicesFrom(b, size, start)[k]| &&
              SlicesFrom(Zip(a, b), size, start)[k] == Zip(SlicesFrom(a, size, start)[k], SlicesFrom(b, size, start)[k])
    decreases |a| - start
  {
    if start < |a| {
      SlicesFromAligned(a, b, size, start + size);
      var end := Min(start + size, |a|);
      assert Zip(a, b)[start..end] == Zip(a[start..end], b[start..end]);
    }
  }

  lemma SlicesAligned<A, B>(a: seq<A>, b: seq<B>, size: nat)
    requires size > 0
    requires |a| == |b|
    ensures |Slices(a, size)| == |Slices(b, size)| == |Slices(Zip(a, b), size)|
    ensures forall k :: 0 <= k < |Slices(a, size)| ==>
              |Slices(a, size)[k]| == |Slices(b, size)[k]| &&
              Slices(Zip(a, b), size)[k] == Zip(Slices(a, size)[k], Slices(b, size)[k])
  {
    SlicesFromAligned(a, b, size, 0);
  }
}

=== FILE: bulk_upload.dfy ===
/** Bulk ingestion: list the files to ingest, turn each document's chunks into flat export
    records, append the records to an NDJSON file and insert them into the SQLite `chunks`
    table, twenty files per batch. The per-file pipeline (load, chunk, embed, store) is
    foreign here and appears as the function `process`; a file whose processing raises is
    skipped without affecting the others. */
module BulkUpload {
  import opened Results
  import opened Models
  import opened Text
  import Paths
  import Batching
  import DocReader

  // ---------------------------------------------------------------------------
  // Listing the input files
  // ---------------------------------------------------------------------------

  const DefaultExtensions: seq<string> := [".json", ".txt", ".csv", ".tsv"]

  /** `extensions or [...]`: both a missing and an empty list mean the default list. */
  function Extensions(extensions: seq<string>): (exts: seq<string>)
    ensures exts != []
  {
    if extensions == [] then DefaultExtensions else extensions
  }

  predicate Listed(p: string, exts: seq<string>) {
    Lower(Paths.Suffix(p)) in exts
  }

  /** The elements of `xs`, in order, that `keep` accepts. */
  function Select<T(==,!new)>(xs: seq<T>, keep: T -> bool): (r: seq<T>)
    ensures |r| <= |xs|
    ensures forall x :: x in r <==> x in xs && keep(x)
  {
    if xs == [] then []
    else (if keep(xs[0]) then [xs[0]] else []) + Select(xs[1..], keep)
  }

  lemma {:induction false} SelectAppend<T(!new)>(a: seq<T>, b: seq<T>, keep: T -> bool)
    ensures Select(a + b, keep) == Select(a, keep) + Select(b, keep)
  {
    if a == [] {
      assert a + b == b;
    } else {
      var h := if keep(a[0]) then [a[0]] else [];
      assert (a + b)[0] == a[0];
      assert (a + b)[1..] == a[1..] + b;
      assert Select(a + b, keep) == h + Select(a[1..] + b, keep);
      SelectAppend(a[1..], b, keep);
      Batching.AppendAssoc(h, Select(a[1..], keep), Select(b, keep));
    }
  }

  lemma {:induction false} SelectIdempotent<T(!new)>(xs: seq<T>, keep: T -> bool)
    ensures Select(Select(xs, keep), keep) == Select(xs, keep)
  {
    if xs != [] {
      var h := if keep(xs[0]) then [xs[0]] else [];
      var rest := Select(xs[1..], keep);
      SelectAppend(h, rest, keep);
      SelectIdempotent(xs[1..], keep);
      if h != [] {
        assert Select(h, keep) == [xs[0]] + Select([], keep);
      }
    }
  }

  function ListedIn(exts: seq<string>): string -> bool {
    p => Listed(p, exts)
  }

  /** The paths, in walk order, whose lower-cased suffix is one of `exts`. */
  function Filter(paths: seq<string>, exts: seq<string>): (r: seq<string>)
    ensures |r| <= |paths|
    ensures forall p :: p in r <==> p in paths && Listed(p, exts)
  {
    Select(paths, ListedIn(exts))
  }

  /** Filtering keeps the walk order: the listing of two runs of paths is the listing of
      the first followed by the listing of the second. */
  lemma FilterAppend(a: seq<string>, b: seq<string>, exts: seq<string>)
    ensures Filter(a + b, exts) == Filter(a, exts) + Filter(b, exts)
  {
    SelectAppend(a, b, ListedIn(exts));
  }

  /** Filtering a listing again changes nothing. */
  lemma FilterIdempotent(paths: seq<string>, exts: seq<string>)
    ensures Filter(Filter(paths, exts), exts) == Filter(paths, exts)
  {
    SelectIdempotent(paths, ListedIn(exts));
  }

  /** `get_all_files(directory, extensions)`, given the paths the recursive walk yields. */
  function GetAllFiles(walk: seq<string>, extensions: seq<string>): (files: seq<string>)
    ensures forall p :: p in files <==> p in walk && Listed(p, Extensions(extensions))
    ensures extensions == [] ==> forall p :: p in files ==> Listed(p, DefaultExtensions)
  {
    Filter(walk, Extensions(extensions))
  }

  /** With the default extensions, PDF files are never ingested, whatever their case. */
  lemma PdfNeverListed(walk: seq<string>, p: string)
    requires Lower(Paths.Suffix(p)) == ".pdf"
    ensures p !in GetAllFiles(walk, [])
  {
  }

  /** Every file listed with the default extensions names a known file type, so the
      loader as written and the intended loader agree on it: the unknown-extension defect
      of the loader cannot show up in bulk ingestion. */
  lemma ListedFilesHaveKnownTypes(walk: seq<string>, p: string, fs: DocReader.FileSystem, docId: string)
    requires p in GetAllFiles(walk, [])
    ensures ParseFileType(DocReader.Extension(p)).Some?
    ensures DocReader.LoadDocument(fs, p, docId) == DocReader.LoadDocumentIntended(fs, p, docId)
  {
    var low := Lower(Paths.Suffix(p));
    assert Listed(p, DefaultExtensions);
    DefaultExtensionKnown(low);
    assert DocReader.Extension(p) == low[1..];
    DocReader.LoadersAgreeOnKnownTypes(fs, p, docId);
  }

  /** Each default extension, without its dot, is the value of a file type. */
  lemma DefaultExtensionKnown(e: string)
    requires e in DefaultExtensions
    ensures |e| >= 2 && ParseFileType(e[1..]).Some?
  {
    if e == ".json" {
      assert e[1..] == "json";
    } else if e == ".txt" {
      assert e[1..] == "txt";
    } else if e == ".csv" {
      assert e[1..] == "csv";
    } else {
      assert e[1..] == "tsv";
    }
  }

  // ---------------------------------------------------------------------------
  // Export records
  // ---------------------------------------------------------------------------

  /** One exported chunk, with the seventeen keys of the NDJSON line and the table row. */
  datatype Record = Record(
    chunk_id: string,
    doc_id: string,
    chunk_index: int,
    chunk_text: string,
    chunk_size: int,
    chunk_tokens: int,
    chunk_method: string,
    chunk_overlap: int,
    start_position: Option<int>,
    end_position: Option<int>,
    domain: string,
    content_type: string,
    embedding_model: string,
    vector_id: Option<string>,
    embedding_timestamp: Option<string>,
    created_at: Option<string>,
    embedding_vector: Option<seq<real>>)

  const ExportOverlap := 50
  const DefaultDomain := "general"
  const ExportEmbeddingModel := "sentence-transformers/all-mpnet-base-v2"

  /** The record for the chunk at position `i` of its document. A `Document` has no
      `domain` attribute, so the domain is always the default. */
  function ToRecord(doc: Document, c: Chunk, i: nat): Record {
    Record(
      ChunkId(doc.id, i), doc.id, i, c.content, |c.content|, WordCount(c.content),
      c.chunking_method.Value(), ExportOverlap, None, None, DefaultDomain,
      doc.file_type.Value(), ExportEmbeddingModel, None, None, None, c.embedding)
  }

  /** `convert_chunks_to_dicts`: the chunks are renumbered by their position in the list,
      whatever `chunk_index` they carry. */
  function ConvertChunks(doc: Document, chunks: seq<Chunk>): (rs: seq<Record>)
    ensures |rs| == |chunks|
    ensures forall i :: 0 <= i < |rs| ==>
              && rs[i].chunk_index == i
              && rs[i].chunk_id == ChunkId(doc.id, i)
              && rs[i].doc_id == doc.id
              && rs[i].chunk_text == chunks[i].content
              && rs[i].chunk_size == |chunks[i].content|
              && rs[i].chunk_tokens == WordCount(chunks[i].content)
              && 0 <= rs[i].chunk_tokens <= rs[i].chunk_size
              && (rs[i].chunk_tokens == 0 <==> AllSpace(chunks[i].content))
              && rs[i].chunk_overlap == ExportOverlap && rs[i].domain == DefaultDomain
              && rs[i].embedding_model == ExportEmbeddingModel
              && rs[i].start_position == None && rs[i].end_position == None
              && rs[i].vector_id == None && rs[i].embedding_timestamp == None && rs[i].created_at == None
              && rs[i].embedding_vector == chunks[i].embedding
              && ParseChunkingMethod(rs[i].chunk_method) == Some(chunks[i].chunking_method)
              && ParseFileType(rs[i].content_type) == Some(doc.file_type)
  {
    FileTypeValues();
    ChunkingMethodValues();
    seq(|chunks|, i requires 0 <= i < |chunks| => ToRecord(doc, chunks[i], i))
  }

  /** The records of one document have pairwise distinct identifiers. */
  lemma ConvertedIdsDistinct(doc: Document, chunks: seq<Chunk>)
    ensures var rs := ConvertChunks(doc, chunks);
            forall i, j :: 0 <= i < j < |rs| ==> rs[i].chunk_id != rs[j].chunk_id
  {
    var rs := ConvertChunks(doc, chunks);
    forall i, j | 0 <= i < j < |rs|
      ensures rs[i].chunk_id != rs[j].chunk_id
    {
      ChunkIdInjective(doc.id, i, j);
    }
  }

  /** The exported index is the list position, so it differs from the chunker's index as
      soon as a fragment was dropped: a chunk the chunker numbered 1 is exported as 0. */
  lemma ExportRenumbers(doc: Document, c: Chunk)
    requires c.chunk_index == 1
    ensures ConvertChunks(doc, [c])[0].chunk_index == 0 != c.chunk_index
  {
  }

  // ---------------------------------------------------------------------------
  // The NDJSON line
  // ---------------------------------------------------------------------------

  /** The keys of an NDJSON line, in the order they are written. */
  const NdjsonKeys: seq<string> := [
    "chunk_id", "doc_id", "chunk_index", "chunk_text", "chunk_size",
    "chunk_tokens", "chunk_method", "chunk_overlap",
    "start_position", "end_position", "domain", "content_type",
    "embedding_model", "vector_id", "embedding_timestamp",
    "created_at", "embedding_vector"]

  /** One NDJSON line before serialisation: the key-value pairs in written order. */
  type Line = seq<(string, Json)>

  function OptInt(o: Option<int>): Json {
    match o case None => JNull case Some(i) => JInt(i)
  }

  function OptStr(o: Option<string>): Json {
    match o case None => JNull case Some(s) => JStr(s)
  }

  function Reals(v: seq<real>): (j: seq<Json>)
    ensures |j| == |v|
  {
    seq(|v|, i requires 0 <= i < |v| => JReal(v[i]))
  }

  function OptVector(o: Option<seq<real>>): Json {
    match o case None => JNull case Some(v) => JList(Reals(v))
  }

  /** `{k: chunk[k] for k in [...]}`: the record's seventeen values under their keys. */
  function Project(r: Record): (line: Line)
    ensures |line| == |NdjsonKeys|
  {
    [ ("chunk_id", JStr(r.chunk_id)), ("doc_id", JStr(r.doc_id)),
      ("chunk_index", JInt(r.chunk_index)), ("chunk_text", JStr(r.chunk_text)),
      ("chunk_size", JInt(r.chunk_size)), ("chunk_tokens", JInt(r.chunk_tokens)),
      ("chunk_method", JStr(r.chunk_method)), ("chunk_overlap", JInt(r.chunk_overlap)),
      ("start_position", OptInt(r.start_position)), ("end_position", OptInt(r.end_position)),
      ("domain", JStr(r.domain)), ("content_type", JStr(r.content_type)),
      ("embedding_model", JStr(r.embedding_model)), ("vector_id", OptStr(r.vector_id)),
      ("embedding_timestamp", OptStr(r.embedding_timestamp)), ("created_at", OptStr(r.created_at)),
      ("embedding_vector", OptVector(r.embedding_vector)) ]
  }

  /** An NDJSON line carries exactly the export keys, in order. */
  lemma ProjectKeys(r: Record)
    ensures HasExportKeys(Project(r))
  {
  }

  function AsStr(j: Json): Option<string> {
    if j.JStr? then Some(j.s) else None
  }

  function AsInt(j: Json): Option<int> {
    if j.JInt? then Some(j.i) else None
  }

  function AsOptInt(j: Json): Option<Option<int>> {
    match j case JNull => Some(None) case JInt(i) => Some(Some(i)) case _ => None
  }

  function AsOptStr(j: Json): Option<Option<string>> {
    match j case JNull => Some(None) case JStr(s) => Some(Some(s)) case _ => None
  }

  function AsReals(items: seq<Json>): (r: Option<seq<real>>)
    ensures r.Some? ==> |r.value| == |items|
  {
    if items == [] then Some([])
    else if !items[0].JReal? then None
    else
      var rest :- AsReals(items[1..]);
      Some([items[0].r] + rest)
  }

  function AsOptVector(j: Json): Option<Option<seq<real>>> {
    match j
    case JNull => Some(None)
    case JList(items) => (match AsReals(items) case None => None case Some(v) => Some(Some(v)))
    case _ => None
  }

  /** Reads a record back from a line with the export keys in order; `None` when a key
      or a value type does not match. */
  function Unproject(line: Line): Option<Record> {
    if HasExportKeys(line) then ReadValues(line) else None
  }

  /** The line has the export keys, in order. */
  predicate HasExportKeys(line: Line) {
    |line| == |NdjsonKeys| && forall k :: 0 <= k < |line| ==> line[k].0 == NdjsonKeys[k]
  }

  /** The seventeen values read back in key order. */
  function ReadValues(line: Line): Option<Record>
    requires |line| == |NdjsonKeys|
  {
      var chunkId :- AsStr(line[0].1);
      var docId :- AsStr(line[1].1);
      var index :- AsInt(line[2].1);
      var text :- AsStr(line[3].1);
      var size :- AsInt(line[4].1);
      var tokens :- AsInt(line[5].1);
      var chunkMethod :- AsStr(line[6].1);
      var overlap :- AsInt(line[7].1);
      var start :- AsOptInt(line[8].1);
      var end :- AsOptInt(line[9].1);
      var domain :- AsStr(line[10].1);
      var contentType :- AsStr(line[11].1);
      var model :- AsStr(line[12].1);
      var vectorId :- AsOptStr(line[13].1);
      var stamp :- AsOptStr(line[14].1);
      var created :- AsOptStr(line[15].1);
      var vector :- AsOptVector(line[16].1);
      Some(Record(chunkId, docId, index, text, size, tokens, chunkMethod, overlap, start, end,
                  domain, contentType, model, vectorId, stamp, created, vector))
  }

  lemma {:induction false} AsRealsReals(v: seq<real>)
    ensures AsReals(Reals(v)) == Some(v)
  {
    if v != [] {
      assert Reals(v)[1..] == Reals(v[1..]);
      AsRealsReals(v[1..]);
      assert [v[0]] + v[1..] == v;
    }
  }

  /** The NDJSON line loses nothing: the record can be read back from it. */
  lemma ProjectRoundTrip(r: Record)
    ensures Unproject(Project(r)) == Some(r)
  {
    ProjectKeys(r);
    if r.embedding_vector.Some? {
      AsRealsReals(r.embedding_vector.value);
    }
    ReadValuesProject(r);
  }

  lemma ReadValuesProject(r: Record)
    ensures ReadValues(Project(r)) == Some(r)
  {
    ReadIdValues(r);
    ReadSizeValues(r);
    ReadPositionValues(r);
    ReadEmbeddingValues(r);
  }

  lemma ReadIdValues(r: Record)
    ensures var line := Project(r);
            && AsStr(line[0].1) == Some(r.chunk_id) && AsStr(line[1].1) == Some(r.doc_id)
            && AsInt(line[2].1) == Some(r.chunk_index) && AsStr(line[3].1) == Some(r.chunk_text)
  {
  }

  lemma ReadSizeValues(r: Record)
    ensures var line := Project(r);
            && AsInt(line[4].1) == Some(r.chunk_size) && AsInt(line[5].1) == Some(r.chunk_tokens)
            && AsStr(line[6].1) == Some(r.chunk_method) && AsInt(line[7].1) == Some(r.chunk_overlap)
  {
  }

  lemma ReadPositionValues(r: Record)
    ensures var line := Project(r);
            && AsOptInt(line[8].1) == Some(r.start_position) && AsOptInt(line[9].1) == Some(r.end_position)
            && AsStr(line[10].1) == Some(r.domain) && AsStr(line[11].1) == Some(r.content_type)
            && AsStr(line[12].1) == Some(r.embedding_model)
  {
  }

  lemma ReadEmbeddingValues(r: Record)
    ensures var line := Project(r);
            && AsOptStr(line[13].1) == Some(r.vector_id)
            && AsOptStr(line[14].1) == Some(r.embedding_timestamp) && AsOptStr(line[15].1) == Some(r.created_at)
            && AsOptVector(line[16].1) == Some(r.embedding_vector)
  {
    if r.embedding_vector.Some? {
      AsRealsReals(r.embedding_vector.value);
    }
  }

  function Lines(rs: seq<Record>): (lines: seq<Line>)
    ensures |lines| == |rs|
  {
    seq(|rs|, i requires 0 <= i < |rs| => Project(rs[i]))
  }

  lemma LinesAppend(a: seq<Record>, b: seq<Record>)
    ensures Lines(a + b) == Lines(a) + Lines(b)
  {
  }

  /** `append_ndjson`: one line per record, added after the existing lines. */
  function AppendNdjson(file: seq<Line>, rs: seq<Record>): (out: seq<Line>)
    ensures |out| == |file| + |rs|
    ensures out[..|file|] == file
    ensures forall i :: 0 <= i < |rs| ==> Unproject(out[|file| + i]) == Some(rs[i])
  {
    LinesRoundTrip(rs);
    file + Lines(rs)
  }

  lemma LinesRoundTrip(rs: seq<Record>)
    ensures forall i :: 0 <= i < |rs| ==> Unproject(Lines(rs)[i]) == Some(rs[i])
  {
    forall i | 0 <= i < |rs|
      ensures Unproject(Lines(rs)[i]) == Some(rs[i])
    {
      ProjectRoundTrip(rs[i]);
    }
  }

  // ---------------------------------------------------------------------------
  // The SQLite chunks table
  // ---------------------------------------------------------------------------

  /** The `chunks` table, keyed by its primary key `chunk_id`. */
  type Table = map<string, Record>

  /** `INSERT OR IGNORE` of the records in order: a record whose `chunk_id` is already
      present, in the table or earlier in the same batch, is dropped. */
  function InsertAll(t: Table, rs: seq<Record>): (r: Table)
    ensures forall k :: k in t ==> k in r && r[k] == t[k]
    ensures forall i :: 0 <= i < |rs| ==> rs[i].chunk_id in r
    decreases |rs|
  {
    if rs == [] then t
    else
      var t' := if rs[0].chunk_id in t then t else t[rs[0].chunk_id := rs[0]];
      var r := InsertAll(t', rs[1..]);
      assert forall i :: 1 <= i < |rs| ==> rs[i] == rs[1..][i - 1];
      r
  }

  /** Inserting adds no key but the inserted identifiers. */
  lemma {:induction false} InsertOnlyGiven(t: Table, rs: seq<Record>, k: string)
    requires k in InsertAll(t, rs) && k !in t
    ensures exists i :: 0 <= i < |rs| && rs[i].chunk_id == k
    decreases |rs|
  {
    var t' := if rs[0].chunk_id in t then t else t[rs[0].chunk_id := rs[0]];
    var tail := rs[1..];
    assert InsertAll(t, rs) == InsertAll(t', tail);
    if k != rs[0].chunk_id {
      InsertOnlyGiven(t', tail, k);
      var i :| 0 <= i < |tail| && tail[i].chunk_id == k;
      assert rs[i + 1] == tail[i];
    }
  }

  /** The first record carrying a new identifier is the one stored. */
  lemma {:induction false} InsertFirstWins(t: Table, rs: seq<Record>, i: nat)
    requires i < |rs| && rs[i].chunk_id !in t
    requires forall j :: 0 <= j < i ==> rs[j].chunk_id != rs[i].chunk_id
    ensures InsertAll(t, rs)[rs[i].chunk_id] == rs[i]
    decreases i
  {
    var t' := if rs[0].chunk_id in t then t else t[rs[0].chunk_id := rs[0]];
    var tail := rs[1..];
    assert InsertAll(t, rs) == InsertAll(t', tail);
    if i > 0 {
      assert tail[i - 1] == rs[i];
      assert rs[i].chunk_id !in t';
      assert forall j :: 0 <= j < i - 1 ==> tail[j] == rs[j + 1];
      InsertFirstWins(t', tail, i - 1);
    } else {
      assert t'[rs[0].chunk_id] == rs[0];
    }
  }

  /** Inserting records whose identifiers are all present changes nothing. */
  lemma {:induction false} InsertPresent(t: Table, rs: seq<Record>)
    requires forall i :: 0 <= i < |rs| ==> rs[i].chunk_id in t
    ensures InsertAll(t, rs) == t
  {
    if rs != [] {
      InsertPresent(t, rs[1..]);
    }
  }

  /** Re-running an insert is harmless. */
  lemma InsertIdempotent(t: Table, rs: seq<Record>)
    ensures InsertAll(InsertAll(t, rs), rs) == InsertAll(t, rs)
  {
    InsertPresent(InsertAll(t, rs), rs);
  }

  /** Inserting in two statements is inserting the concatenation in one. */
  lemma {:induction false} InsertAppend(t: Table, a: seq<Record>, b: seq<Record>)
    ensures InsertAll(InsertAll(t, a), b) == InsertAll(t, a + b)
    decreases |a|
  {
    if a == [] {
      assert a + b == b;
    } else {
      var t' := if a[0].chunk_id in t then t else t[a[0].chunk_id := a[0]];
      assert (a + b)[0] == a[0];
      assert (a + b)[1..] == a[1..] + b;
      InsertAppend(t', a[1..], b);
    }
  }

  /** A document whose identifiers are new to the table is stored in full. */
  lemma NewDocumentStoredInFull(t: Table, doc: Document, chunks: seq<Chunk>)
    requires forall i :: 0 <= i < |chunks| ==> ChunkId(doc.id, i) !in t
    ensures var rs := ConvertChunks(doc, chunks);
            forall i :: 0 <= i < |rs| ==> rs[i].chunk_id in InsertAll(t, rs) && InsertAll(t, rs)[rs[i].chunk_id] == rs[i]
  {
    var rs := ConvertChunks(doc, chunks);
    ConvertedIdsDistinct(doc, chunks);
    forall i | 0 <= i < |rs|
      ensures InsertAll(t, rs)[rs[i].chunk_id] == rs[i]
    {
      InsertFirstWins(t, rs, i);
    }
  }

  // ---------------------------------------------------------------------------
  // The batch loop
  // ---------------------------------------------------------------------------

  const BatchSize: nat := 20

  /** The per-file pipeline: the document and its embedded chunks, or `None` when
      processing raised. */
  type Processor = string -> Option<(Document, seq<Chunk>)>

  /** The records one file contributes: none when its processing raised. */
  function FileRecords(process: Processor, f: string): seq<Record> {
    match process(f)
    case None => []
    case Some(dc) => ConvertChunks(dc.0, dc.1)
  }

  /** The records of a run of files, in file order. */
  function AllRecords(process: Processor, files: seq<string>): seq<Record> {
    if files == [] then [] else AllRecords(process, files[..|files| - 1]) + FileRecords(process, files[|files| - 1])
  }

  lemma {:induction false} AllRecordsAppend(process: Processor, a: seq<string>, b: seq<string>)
    ensures AllRecords(process, a + b) == AllRecords(process, a) + AllRecords(process, b)
    decreases |b|
  {
    if b == [] {
      assert a + b == a;
    } else {
      var n := |b| - 1;
      var init := b[..n];
      assert (a + b)[..|a + b| - 1] == a + init;
      assert (a + b)[|a + b| - 1] == b[n];
      AllRecordsAppend(process, a, init);
      Batching.AppendAssoc(AllRecords(process, a), AllRecords(process, init), FileRecords(process, b[n]));
    }
  }

  /** A file whose processing raised contributes nothing, wherever it sits among the
      others: the remaining files are ingested exactly as if it were absent. */
  lemma FailingFileIsolated(process: Processor, a: seq<string>, f: string, b: seq<string>)
    requires process(f).None?
    ensures AllRecords(process, a + [f] + b) == AllRecords(process, a + b)
  {
    var af := a + [f];
    assert a + [f] + b == af + b;
    AllRecordsAppend(process, af, b);
    assert af[..|af| - 1] == a;
    assert AllRecords(process, af) == AllRecords(process, a) + FileRecords(process, f);
    assert AllRecords(process, af) == AllRecords(process, a);
    AllRecordsAppend(process, a, b);
  }

  /** Processing one more batch extends the records of the batches before it. */
  lemma BatchStep(process: Processor, batches: seq<seq<string>>, b: nat)
    requires b < |batches|
    ensures AllRecords(process, Batching.Flatten(batches[..b + 1]))
         == AllRecords(process, Batching.Flatten(batches[..b])) + AllRecords(process, batches[b])
  {
    Batching.FlattenSnoc(batches, b);
    AllRecordsAppend(process, Batching.Flatten(batches[..b]), batches[b]);
  }

  /** A batch writes when at least one of its files yields a record. */
  predicate Writes(process: Processor, batch: seq<string>) {
    AllRecords(process, batch) != []
  }

  /** The outcome of a run: the NDJSON lines, the table, and the batches that wrote. */
  datatype Outcome = Outcome(ndjson: seq<Line>, table: Table, written: seq<nat>)

  /** The records of one batch, gathered file by file; a file whose processing raises is
      reported and skipped. */
  method ProcessBatch(process: Processor, batch: seq<string>) returns (recs: seq<Record>)
    ensures recs == AllRecords(process, batch)
  {
    recs := [];
    var i := 0;
    while i < |batch|
      invariant 0 <= i <= |batch|
      invariant recs == AllRecords(process, batch[..i])
    {
      match process(batch[i]) {
        case None =>
        case Some(dc) =>
          recs := recs + ConvertChunks(dc.0, dc.1);
      }
      assert batch[..i + 1][..i] == batch[..i];
      i := i + 1;
    }
    assert batch[..i] == batch;
  }

  /** One batch: gather its records and, when there are any, append them to the NDJSON
      lines and insert them into the table; a batch without records writes nothing. */
  method WriteBatch(process: Processor, batch: seq<string>, ndjson: seq<Line>, table: Table)
    returns (ndjson': seq<Line>, table': Table, wrote: bool)
    ensures ndjson' == ndjson + Lines(AllRecords(process, batch))
    ensures table' == InsertAll(table, AllRecords(process, batch))
    ensures wrote <==> Writes(process, batch)
  {
    var recs := ProcessBatch(process, batch);
    if recs != [] {
      ndjson' := AppendNdjson(ndjson, recs);
      table' := InsertAll(table, recs);
      wrote := true;
    } else {
      ndjson', table', wrote := ndjson, table, false;
    }
  }

  lemma WrittenStep(process: Processor, batches: seq<seq<string>>, written: seq<nat>, b: nat, wrote: bool)
    requires b < |batches|
    requires forall k :: k in written <==> 0 <= k < b && Writes(process, batches[k])
    requires wrote <==> Writes(process, batches[b])
    ensures var w := if wrote then written + [b] else written;
            forall k :: k in w <==> 0 <= k < b + 1 && Writes(process, batches[k])
  {
  }

  /** What one more batch adds to the records, the lines and the table of a run. */
  lemma RunStep(process: Processor, batches: seq<seq<string>>, b: nat, table0: Table, done: seq<Record>)
    requires b < |batches|
    requires done == AllRecords(process, Batching.Flatten(batches[..b]))
    ensures var recs := AllRecords(process, batches[b]);
            && done + recs == AllRecords(process, Batching.Flatten(batches[..b + 1]))
            && Lines(done) + Lines(recs) == Lines(done + recs)
            && InsertAll(InsertAll(table0, done), recs) == InsertAll(table0, done + recs)
  {
    var recs := AllRecords(process, batches[b]);
    BatchStep(process, batches, b);
    LinesAppend(done, recs);
    InsertAppend(table0, done, recs);
  }

  method RunBulk(files: seq<string>, process: Processor, existing: seq<Line>, table0: Table) returns (out: Outcome)
    ensures out.ndjson == Lines(AllRecords(process, files))
    ensures out.table == InsertAll(table0, AllRecords(process, files))
    ensures forall b :: b in out.written <==>
              0 <= b < |Batching.Slices(files, BatchSize)| && Writes(process, Batching.Slices(files, BatchSize)[b])
  {
    var batches := Batching.Slices(files, BatchSize);
    var ndjson: seq<Line> := [];
    var table := table0;
    var written: seq<nat> := [];
    ghost var done: seq<Record> := [];
    var b: nat := 0;
    while b < |batches|
      invariant b <= |batches|
      invariant done == AllRecords(process, Batching.Flatten(batches[..b]))
      invariant ndjson == Lines(done)
      invariant table == InsertAll(table0, done)
      invariant forall k :: k in written <==> 0 <= k < b && Writes(process, batches[k])
    {
      var wrote;
      ndjson, table, wrote := WriteBatch(process, batches[b], ndjson, table);
      RunStep(process, batches, b, table0, done);
      done := done + AllRecords(process, batches[b]);
      WrittenStep(process, batches, written, b, wrote);
      if wrote {
        written := written + [b];
      }
      b := b + 1;
    }
    assert batches[..b] == batches;
    Batching.SlicesPartition(files, BatchSize);
    out := Outcome(ndjson, table, written);
  }
}

=== FILE: chunker.dfy ===
/** The chunking service: how a document is split into chunks. The file type decides
    first (CSV and TSV are packed row by row, JSON goes through the structural splitter),
    otherwise the configured method picks a text splitter. The splitters and the table
    parser are foreign libraries and appear as functions of `Splitters`; what is modelled
    is the dispatch, the row packing, the sliding-window overlap over JSON splits and the
    filter-and-index pass that turns split texts into chunks. */
module Chunker {
  import opened Results
  import opened Models
  import opened Text
  import opened Packing
  import Batching

  /** One piece returned by the JSON splitter: its text and its metadata. */
  datatype JsonSplit = JsonSplit(text: string, metadata: Metadata)

  /** A table as parsed without a header row: `width` columns and the cell texts of each row. */
  datatype Table = Table(width: nat, rows: seq<seq<string>>)

  /** One row as an ordered mapping from column name to cell text. */
  type RowDict = seq<(string, string)>

  /** The foreign collaborators of the chunker.
      - `text(m, content, size, overlap)`: the LangChain text splitter selected by `m`.
      - `json(content, maxSize)`: the JSON splitter; a failure triggers the fallback.
      - `readTable(content, sep)`: `pandas.read_csv(..., sep=sep, header=None)`.
      - `dumpRow` / `dumpRows`: `json.dumps(..., ensure_ascii=False)` of one row or a list of rows. */
  datatype Splitters = Splitters(
    text: (ChunkingMethod, string, int, int) -> Result<seq<string>>,
    json: (string, int) -> Result<seq<JsonSplit>>,
    readTable: (string, string) -> Result<Table>,
    dumpRow: RowDict -> string,
    dumpRows: seq<RowDict> -> string)

  /** The byte budget of a tabular chunk: `max_kb * 1024` with `max_kb = 2`. */
  const MaxKb := 2
  const MaxBytes: nat := if MaxKb != 0 then MaxKb * 1024 else 4096

  // ---------------------------------------------------------------------------
  // Tabular chunking
  // ---------------------------------------------------------------------------

  /** The generated column names `Column1 .. ColumnN`. */
  function ColumnNames(n: nat): (cols: seq<string>)
    ensures |cols| == n
  {
    seq(n, i requires 0 <= i < n => "Column" + NatToString(i + 1))
  }

  /** `{str(col): str(row[col]) for col in df.columns}`: cells paired with column names by position. */
  function RowDictOf(columns: seq<string>, cells: seq<string>): (d: RowDict)
  {
    var n := if |columns| <= |cells| then |columns| else |cells|;
    seq(n, i requires 0 <= i < n => (columns[i], cells[i]))
  }

  function RowDicts(table: Table): (ds: seq<RowDict>)
    ensures |ds| == |table.rows|
  {
    var columns := ColumnNames(table.width);
    seq(|table.rows|, i requires 0 <= i < |table.rows| => RowDictOf(columns, table.rows[i]))
  }

  /** The UTF-8 byte length of each row's JSON text. */
  function RowSizes(sp: Splitters, dicts: seq<RowDict>): (sizes: seq<nat>)
    ensures |sizes| == |dicts|
  {
    seq<nat>(|dicts|, i requires 0 <= i < |dicts| => Utf8Length(sp.dumpRow(dicts[i])))
  }

  function ColumnsValue(columns: seq<string>): Json {
    JList(seq(|columns|, i requires 0 <= i < |columns| => JStr(columns[i])))
  }

  /** The chunk for the rows of one span: its text is the JSON list of those rows, its
      index and identifier are the first row's index, and its metadata names the document,
      its type and the columns and records the inclusive row range. */
  function TabularChunk(doc: Document, sp: Splitters, columns: seq<string>, dicts: seq<RowDict>, s: Span): (r: Result<Chunk>)
    requires s.start < s.end <= |dicts|
    ensures r.Success? <==> |sp.dumpRows(dicts[s.start..s.end])| >= ChunkMinLength
    ensures r.Success? ==> r.value.chunk_index == s.start && r.value.id == ChunkId(doc.id, s.start)
    ensures r.Success? ==> "row_start" in r.value.metadata && r.value.metadata["row_start"] == JInt(s.start)
    ensures r.Success? ==> "row_end" in r.value.metadata && r.value.metadata["row_end"] == JInt(s.end - 1)
    ensures r.Success? ==> r.value.chunking_method == RECURSIVE && r.value.doc_id == doc.id
    ensures r.Success? ==> ValidChunk(r.value) && r.value.embedding == None
    ensures r.Success? ==> r.value.content == sp.dumpRows(dicts[s.start..s.end])
    ensures r.Success? ==> TabularMetadata(doc, columns, r.value.metadata)
  {
    var metadata := map[
      "document_title" := JStr(doc.title),
      "file_type" := JStr(doc.file_type.Value()),
      "columns" := ColumnsValue(columns),
      "row_start" := JInt(s.start),
      "row_end" := JInt(s.end - 1)];
    MkChunk(ChunkId(doc.id, s.start), doc.id, sp.dumpRows(dicts[s.start..s.end]), s.start, RECURSIVE, metadata)
  }

  /** The metadata every tabular chunk carries besides its row range: the document's title
      and type value, and the column names as a list. */
  predicate TabularMetadata(doc: Document, columns: seq<string>, m: Metadata) {
    && "document_title" in m && m["document_title"] == JStr(doc.title)
    && "file_type" in m && m["file_type"] == JStr(doc.file_type.Value())
    && "columns" in m && m["columns"] == ColumnsValue(columns)
  }

  /** Tabular chunking of an already parsed table: pack the rows greedily under the byte
      budget and build one chunk per packed run. The first chunk whose JSON text is too
      short for a `Chunk` makes the whole call fail. */
  function TabularChunksOf(doc: Document, sp: Splitters, table: Table): (r: Result<seq<Chunk>>)
  {
    var columns := ColumnNames(table.width);
    var dicts := RowDicts(table);
    var spans := PackRows(RowSizes(sp, dicts), MaxBytes);
    Sequence(seq(|spans|, k requires 0 <= k < |spans| => TabularChunk(doc, sp, columns, dicts, spans[k])))
  }

  /** `_csv_tsv_chunking`: parse with "," for CSV and a tab otherwise, then pack the rows. */
  function TabularChunks(doc: Document, sp: Splitters): (r: Result<seq<Chunk>>)
    ensures sp.readTable(doc.content, Separator(doc)).Failure? ==>
              r == Failure(sp.readTable(doc.content, Separator(doc)).error)
    ensures sp.readTable(doc.content, Separator(doc)).Success? ==>
              r == TabularChunksOf(doc, sp, sp.readTable(doc.content, Separator(doc)).value)
  {
    var table :- sp.readTable(doc.content, Separator(doc));
    TabularChunksOf(doc, sp, table)
  }

  /** The column separator: a comma for CSV, a tab for everything else. */
  function Separator(doc: Document): string {
    if doc.file_type.Value() == "csv" then "," else "\t"
  }

  /** The last row a tabular chunk covers, as recorded in its metadata. */
  function RowEnd(c: Chunk): int {
    if "row_end" in c.metadata && c.metadata["row_end"].JInt? then c.metadata["row_end"].i else -1
  }

  /** The row range `[chunk_index, row_end + 1)` each chunk records. */
  function RecordedSpans(cs: seq<Chunk>): seq<Span> {
    seq(|cs|, k requires 0 <= k < |cs| =>
      Span(if cs[k].chunk_index >= 0 then cs[k].chunk_index else 0, if RowEnd(cs[k]) + 1 >= 0 then RowEnd(cs[k]) + 1 else 0))
  }

  lemma {:induction false} TilesStartsIncrease(sizes: seq<nat>, lo: nat, spans: seq<Span>, j: nat, k: nat)
    requires Tiles(sizes, lo, spans)
    requires j < k < |spans|
    ensures spans[j].start < spans[k].start
    decreases k - j
  {
    if j + 1 < k {
      TilesStartsIncrease(sizes, lo, spans, j, k - 1);
    }
  }

  /** Tabular chunking is an ordered partition of the rows under the budget. The row
      ranges the chunks record are exactly the greedy packing of the row sizes: the ranges
      tile all rows in order (so concatenating the chunks' rows gives back the table, and
      no rows means no chunks), each chunk's text is the JSON list of the rows of its range, a range of two or more rows stays within 2048 bytes, and
      every range but the last would have overflowed with the next row. Each chunk's index
      and identifier are its first row's index, so indices strictly increase, and the
      method recorded is always RECURSIVE. */
  lemma TabularChunksPartition(doc: Document, sp: Splitters, table: Table)
    requires TabularChunksOf(doc, sp, table).Success?
    ensures var cs := TabularChunksOf(doc, sp, table).value;
            var sizes := RowSizes(sp, RowDicts(table));
            && RecordedSpans(cs) == PackRows(sizes, MaxBytes)
            && Greedy(sizes, MaxBytes, 0, RecordedSpans(cs))
            && Batching.Flatten(Groups(RowDicts(table), RecordedSpans(cs))) == RowDicts(table)
            && (forall k :: 0 <= k < |cs| ==> cs[k].content == sp.dumpRows(Groups(RowDicts(table), RecordedSpans(cs))[k]))
            && (cs == [] <==> table.rows == [])
            && (forall k :: 0 <= k < |cs| ==>
                  && cs[k].id == ChunkId(doc.id, RecordedSpans(cs)[k].start)
                  && cs[k].metadata["row_start"] == JInt(cs[k].chunk_index)
                  && cs[k].chunking_method == RECURSIVE)
            && (forall j, k :: 0 <= j < k < |cs| ==> cs[j].chunk_index < cs[k].chunk_index)
  {
    var cs := TabularChunksOf(doc, sp, table).value;
    var dicts := RowDicts(table);
    var sizes := RowSizes(sp, dicts);
    var spans := PackRows(sizes, MaxBytes);
    TabularChunkFields(doc, sp, table);
    TabularChunkContents(doc, sp, table);
    RecordedSpansAre(cs, spans);
    GroupsConcat(dicts, sizes, 0, spans);
    assert dicts[0..] == dicts;
    forall j, k | 0 <= j < k < |cs|
      ensures cs[j].chunk_index < cs[k].chunk_index
    {
      TilesStartsIncrease(sizes, 0, spans, j, k);
    }
  }

  /** Chunk `k` of a tabular chunking starts at the first row of span `k`, records its
      last row, and is named after its first row. */
  lemma TabularChunkFields(doc: Document, sp: Splitters, table: Table)
    requires TabularChunksOf(doc, sp, table).Success?
    ensures var cs := TabularChunksOf(doc, sp, table).value;
            var spans := PackRows(RowSizes(sp, RowDicts(table)), MaxBytes);
            && |cs| == |spans|
            && forall k :: 0 <= k < |cs| ==>
                 && cs[k].chunk_index == spans[k].start && RowEnd(cs[k]) == spans[k].end - 1
                 && cs[k].id == ChunkId(doc.id, spans[k].start)
                 && "row_start" in cs[k].metadata && cs[k].metadata["row_start"] == JInt(cs[k].chunk_index)
                 && cs[k].chunking_method == RECURSIVE
  {
    var cs := TabularChunksOf(doc, sp, table).value;
    var columns := ColumnNames(table.width);
    var dicts := RowDicts(table);
    var spans := PackRows(RowSizes(sp, dicts), MaxBytes);
    var steps := seq(|spans|, k requires 0 <= k < |spans| => TabularChunk(doc, sp, columns, dicts, spans[k]));
    forall k | 0 <= k < |cs|
      ensures cs[k].chunk_index == spans[k].start && RowEnd(cs[k]) == spans[k].end - 1
      ensures cs[k].id == ChunkId(doc.id, spans[k].start)
      ensures "row_start" in cs[k].metadata && cs[k].metadata["row_start"] == JInt(cs[k].chunk_index)
      ensures cs[k].chunking_method == RECURSIVE
    {
      assert steps[k] == Success(cs[k]);
    }
  }

  /** Chunk `k` of a tabular chunking holds the JSON text of exactly the rows of span `k`,
      and names the document, its type and the generated columns. */
  lemma TabularChunkContents(doc: Document, sp: Splitters, table: Table)
    requires TabularChunksOf(doc, sp, table).Success?
    ensures var cs := TabularChunksOf(doc, sp, table).value;
            var spans := PackRows(RowSizes(sp, RowDicts(table)), MaxBytes);
            && |cs| == |spans|
            && forall k :: 0 <= k < |cs| ==>
                 && cs[k].content == sp.dumpRows(Groups(RowDicts(table), spans)[k])
                 && TabularMetadata(doc, ColumnNames(table.width), cs[k].metadata)
  {
    var cs := TabularChunksOf(doc, sp, table).value;
    var columns := ColumnNames(table.width);
    var dicts := RowDicts(table);
    var spans := PackRows(RowSizes(sp, dicts), MaxBytes);
    var steps := seq(|spans|, k requires 0 <= k < |spans| => TabularChunk(doc, sp, columns, dicts, spans[k]));
    forall k | 0 <= k < |cs|
      ensures cs[k].content == sp.dumpRows(Groups(dicts, spans)[k])
      ensures TabularMetadata(doc, columns, cs[k].metadata)
    {
      assert steps[k] == Success(cs[k]);
    }
  }

  lemma RecordedSpansAre(cs: seq<Chunk>, spans: seq<Span>)
    requires |cs| == |spans|
    requires forall k :: 0 <= k < |cs| ==> cs[k].chunk_index == spans[k].start && RowEnd(cs[k]) == spans[k].end - 1
    ensures RecordedSpans(cs) == spans
  {
  }

  /** Ten rows of 300 bytes each under the 2048-byte budget pack as six rows (1800 bytes)
      and then four. */
  lemma TenRowsOfThreeHundredBytes()
    ensures PackRows(seq(10, _ => 300), MaxBytes) == [Span(0, 6), Span(6, 10)]
  {
    var sizes: seq<nat> := seq(10, _ => 300);
    var expected := [Span(0, 6), Span(6, 10)];
    assert Sum(sizes[0..6]) == 1800 by {
      forall i | 0 <= i <= 6
        ensures Sum(sizes[0..i]) == 300 * i
      {
        SumOfConstant(sizes, i);
      }
    }
    assert Sum(sizes[6..10]) == 1200 by {
      assert sizes[6..10] == seq(4, _ => 300);
      SumOfConstant(sizes[6..10], 4);
      assert sizes[6..10][0..4] == sizes[6..10];
    }
    assert Greedy(sizes, MaxBytes, 0, expected);
    GreedyUnique(sizes, MaxBytes, 0, PackRows(sizes, MaxBytes), expected);
  }

  lemma {:induction false} SumOfConstant(sizes: seq<nat>, i: nat)
    requires i <= |sizes|
    requires forall k :: 0 <= k < |sizes| ==> sizes[k] == 300
    ensures Sum(sizes[0..i]) == 300 * i
  {
    if i > 0 {
      SumOfConstant(sizes, i - 1);
      SumSnoc(sizes, 0, i - 1);
    }
  }

  // ---------------------------------------------------------------------------
  // Filter-and-index over split texts
  // ---------------------------------------------------------------------------

  /** A split text is kept when its stripped form has at least 20 characters. */
  predicate Keep(t: string) {
    |Strip(t)| >= ChunkMinLength
  }

  /** The positions, from `from` on, whose flag is set, in increasing order. */
  function Positions(flags: seq<bool>, from: nat): (idx: seq<nat>)
    requires from <= |flags|
    ensures |idx| <= |flags| - from
    ensures forall k :: 0 <= k < |idx| ==> from <= idx[k] < |flags| && flags[idx[k]]
    ensures forall j, k :: 0 <= j < k < |idx| ==> idx[j] < idx[k]
    decreases |flags| - from
  {
    if from == |flags| then []
    else
      var rest := Positions(flags, from + 1);
      if flags[from] then
        var idx := [from] + rest;
        assert forall k :: 1 <= k < |idx| ==> idx[k] == rest[k - 1];
        idx
      else rest
  }

  /** Every set flag from `from` on has its position listed. */
  lemma {:induction false} PositionsComplete(flags: seq<bool>, from: nat, i: nat)
    requires from <= i < |flags| && flags[i]
    ensures i in Positions(flags, from)
    decreases |flags| - from
  {
    if from < i {
      PositionsComplete(flags, from + 1, i);
      var rest := Positions(flags, from + 1);
      if flags[from] {
        assert Positions(flags, from) == [from] + rest;
      }
    }
  }

  /** The positions below `n` whose text is kept, in increasing order, all of them. */
  function KeptIndices(texts: seq<string>, n: nat): (idx: seq<nat>)
    requires n <= |texts|
    ensures |idx| <= n
    ensures forall k :: 0 <= k < |idx| ==> idx[k] < n && Keep(texts[idx[k]])
    ensures forall j, k :: 0 <= j < k < |idx| ==> idx[j] < idx[k]
    ensures forall i :: 0 <= i < n && Keep(texts[i]) ==> i in idx
  {
    var flags := seq(n, i requires 0 <= i < n => Keep(texts[i]));
    assert forall i :: 0 <= i < n && Keep(texts[i]) ==> i in Positions(flags, 0) by {
      forall i | 0 <= i < n && Keep(texts[i])
        ensures i in Positions(flags, 0)
      {
        PositionsComplete(flags, 0, i);
      }
    }
    Positions(flags, 0)
  }

  /** The chunk for a kept text at position `i` of the splitter's output. */
  function TextChunk(doc: Document, config: ProcessingConfig, t: string, i: nat, metadata: Metadata): (c: Chunk)
    requires Keep(t)
    ensures c.chunk_index == i && c.id == ChunkId(doc.id, i) && c.content == Strip(t) && c.metadata == metadata
    ensures c.chunking_method == config.chunking_method && c.doc_id == doc.id && c.embedding == None && ValidChunk(c)
  {
    MkChunk(ChunkId(doc.id, i), doc.id, Strip(t), i, config.chunking_method, metadata).value
  }

  /** `c` is the chunk made from the text at its own index: that text is kept, and the
      chunk holds it stripped, the identifier for that index, that index's metadata and
      the configured method, and no embedding. */
  predicate FromText(texts: seq<string>, metas: seq<Metadata>, doc: Document, config: ProcessingConfig, c: Chunk) {
    && 0 <= c.chunk_index < |texts| && c.chunk_index < |metas|
    && Keep(texts[c.chunk_index])
    && c.content == Strip(texts[c.chunk_index])
    && c.id == ChunkId(doc.id, c.chunk_index)
    && c.metadata == metas[c.chunk_index]
    && c.chunking_method == config.chunking_method
    && c.doc_id == doc.id && c.embedding == None
    && ValidChunk(c)
  }

  /** One chunk per listed position, made from the text there. */
  function ChunksAt(texts: seq<string>, metas: seq<Metadata>, doc: Document, config: ProcessingConfig, idx: seq<nat>): (r: seq<Chunk>)
    requires forall k :: 0 <= k < |idx| ==> idx[k] < |texts| && idx[k] < |metas| && Keep(texts[idx[k]])
    ensures |r| == |idx|
    ensures forall k :: 0 <= k < |r| ==> r[k].chunk_index == idx[k] && FromText(texts, metas, doc, config, r[k])
  {
    seq(|idx|, k requires 0 <= k < |idx| => TextChunk(doc, config, texts[idx[k]], idx[k], metas[idx[k]]))
  }

  /** The filter-and-index pass shared by `_create_chunks` and `_create_chunks_json`: the
      text at position `i` comes with the metadata `metas[i]`, up to the shorter list.
      Every kept text becomes a chunk, stored stripped, and every chunk comes from a kept
      text. Index and identifier are the position in the UNFILTERED input, so indices
      strictly increase and skip the dropped fragments. */
  function IndexChunks(texts: seq<string>, metas: seq<Metadata>, doc: Document, config: ProcessingConfig): (r: seq<Chunk>)
    ensures |r| <= |texts| && |r| <= |metas|
    ensures forall k :: 0 <= k < |r| ==> FromText(texts, metas, doc, config, r[k])
    ensures forall j, k :: 0 <= j < k < |r| ==> r[j].chunk_index < r[k].chunk_index
  {
    var n := if |texts| <= |metas| then |texts| else |metas|;
    ChunksAt(texts, metas, doc, config, KeptIndices(texts, n))
  }

  /** A text paired with metadata becomes a chunk exactly when it is kept. */
  lemma IndexChunksExactly(texts: seq<string>, metas: seq<Metadata>, doc: Document, config: ProcessingConfig, i: nat)
    requires i < |texts| && i < |metas|
    ensures var r := IndexChunks(texts, metas, doc, config);
            Keep(texts[i]) <==> exists k :: 0 <= k < |r| && r[k].chunk_index == i
  {
    var r := IndexChunks(texts, metas, doc, config);
    if exists k :: 0 <= k < |r| && r[k].chunk_index == i {
      var k :| 0 <= k < |r| && r[k].chunk_index == i;
      assert FromText(texts, metas, doc, config, r[k]);
    }
    if Keep(texts[i]) {
      var n := if |texts| <= |metas| then |texts| else |metas|;
      var idx := KeptIndices(texts, n);
      var k :| 0 <= k < |idx| && idx[k] == i;
      assert r[k].chunk_index == i;
    }
  }

  function BaseMetadata(doc: Document, t: string): (m: Metadata)
    ensures "chunk_size" in m && m["chunk_size"] == JInt(|t|)
    ensures "word_count" in m && m["word_count"] == JInt(WordCount(t))
    ensures "document_title" in m && "file_type" in m
  {
    map[
      "document_title" := JStr(doc.title),
      "file_type" := JStr(doc.file_type.Value()),
      "chunk_size" := JInt(|t|),
      "word_count" := JInt(WordCount(t))]
  }

  /** The base metadata of each text, position by position. */
  function BaseMetas(doc: Document, texts: seq<string>): (ms: seq<Metadata>)
    ensures |ms| == |texts|
    ensures forall i :: 0 <= i < |texts| ==> ms[i] == BaseMetadata(doc, texts[i])
  {
    seq(|texts|, i requires 0 <= i < |texts| => BaseMetadata(doc, texts[i]))
  }

  /** `_create_chunks`: every chunk carries the base metadata of its own unstripped text,
      so `chunk_size` records the length before stripping. */
  function CreateChunks(texts: seq<string>, doc: Document, config: ProcessingConfig): (r: seq<Chunk>)
    ensures |r| <= |texts|
    ensures forall k :: 0 <= k < |r| ==> FromText(texts, BaseMetas(doc, texts), doc, config, r[k])
    ensures forall j, k :: 0 <= j < k < |r| ==> r[j].chunk_index < r[k].chunk_index
  {
    IndexChunks(texts, BaseMetas(doc, texts), doc, config)
  }

  /** The metadata of a JSON chunk: the base keys, `json_path` taken from the split's
      `path` (an empty list when absent), then every key of the split's own metadata,
      which wins over the base keys because it is spread last. */
  function JsonMetadata(doc: Document, t: string, meta: Metadata): (m: Metadata)
    ensures forall key :: key in meta ==> key in m && m[key] == meta[key]
    ensures "json_path" in m && ("json_path" !in meta && "path" in meta ==> m["json_path"] == meta["path"])
    ensures "json_path" !in meta && "path" !in meta ==> m["json_path"] == JList([])
    ensures "chunk_size" !in meta ==> "chunk_size" in m && m["chunk_size"] == JInt(|t|)
  {
    BaseMetadata(doc, t)
      + map["json_path" := if "path" in meta then meta["path"] else JList([])]
      + meta
  }

  /** The JSON metadata of each text paired with its split's metadata, up to the shorter
      list. */
  function JsonMetas(doc: Document, texts: seq<string>, metas: seq<Metadata>): (ms: seq<Metadata>)
    ensures |ms| <= |texts| && |ms| <= |metas| && (|ms| == |texts| || |ms| == |metas|)
    ensures forall i :: 0 <= i < |ms| ==> ms[i] == JsonMetadata(doc, texts[i], metas[i])
  {
    var n := if |texts| <= |metas| then |texts| else |metas|;
    seq(n, i requires 0 <= i < n => JsonMetadata(doc, texts[i], metas[i]))
  }

  /** `_create_chunks_json`: texts are paired with metadata up to the shorter list, then
      filtered and indexed as `_create_chunks` does. The method recorded is the configured
      one, not JSON. */
  function CreateChunksJson(texts: seq<string>, metas: seq<Metadata>, doc: Document, config: ProcessingConfig): (r: seq<Chunk>)
    ensures |r| <= |texts| && |r| <= |metas|
    ensures forall k :: 0 <= k < |r| ==> FromText(texts, JsonMetas(doc, texts, metas), doc, config, r[k])
    ensures forall j, k :: 0 <= j < k < |r| ==> r[j].chunk_index < r[k].chunk_index
  {
    IndexChunks(texts, JsonMetas(doc, texts, metas), doc, config)
  }

  /** A JSON text with a metadata partner becomes a chunk exactly when it is kept, and the
      chunk's metadata is the merge of the base keys with that partner. */
  lemma CreateChunksJsonExactly(texts: seq<string>, metas: seq<Metadata>, doc: Document, config: ProcessingConfig, i: nat)
    requires i < |texts| && i < |metas|
    ensures var r := CreateChunksJson(texts, metas, doc, config);
            && (Keep(texts[i]) <==> exists k :: 0 <= k < |r| && r[k].chunk_index == i)
            && forall k :: 0 <= k < |r| && r[k].chunk_index == i ==> r[k].metadata == JsonMetadata(doc, texts[i], metas[i])
  {
    var r := CreateChunksJson(texts, metas, doc, config);
    var ms := JsonMetas(doc, texts, metas);
    IndexChunksExactly(texts, ms, doc, config, i);
    if exists k :: 0 <= k < |r| && r[k].chunk_index == i {
      var k :| 0 <= k < |r| && r[k].chunk_index == i;
      assert FromText(texts, ms, doc, config, r[k]);
    }
    forall k | 0 <= k < |r| && r[k].chunk_index == i
      ensures r[k].metadata == JsonMetadata(doc, texts[i], metas[i])
    {
      assert FromText(texts, ms, doc, config, r[k]);
    }
  }

  /** A text becomes a chunk exactly when it is kept, and the chunk's metadata describes
      the text before stripping. */
  lemma CreateChunksExactly(texts: seq<string>, doc: Document, config: ProcessingConfig, i: nat)
    requires i < |texts|
    ensures var r := CreateChunks(texts, doc, config);
            && (Keep(texts[i]) <==> exists k :: 0 <= k < |r| && r[k].chunk_index == i)
            && forall k :: 0 <= k < |r| && r[k].chunk_index == i ==> r[k].metadata == BaseMetadata(doc, texts[i])
  {
    var r := CreateChunks(texts, doc, config);
    var ms := BaseMetas(doc, texts);
    IndexChunksExactly(texts, ms, doc, config, i);
    if exists k :: 0 <= k < |r| && r[k].chunk_index == i {
      var k :| 0 <= k < |r| && r[k].chunk_index == i;
      assert FromText(texts, ms, doc, config, r[k]);
    }
    forall k | 0 <= k < |r| && r[k].chunk_index == i
      ensures r[k].metadata == BaseMetadata(doc, texts[i])
    {
      assert FromText(texts, ms, doc, config, r[k]);
    }
  }

  // ---------------------------------------------------------------------------
  // JSON overlap and the JSON path
  // ---------------------------------------------------------------------------

  function MaxZero(x: int): nat {
    if x > 0 then x else 0
  }

  /** Element `idx` of the overlapped texts: the " "-join of splits `max(0, idx-window) .. idx`. */
  function Window(texts: seq<string>, window: int, idx: nat): (w: string)
    requires window > 0
    requires idx < |texts|
    ensures EndsWith(w, texts[idx])
    ensures texts[MaxZero(idx - window)] <= w
    ensures |w| == TotalLength(texts[MaxZero(idx - window)..idx + 1]) + (idx - MaxZero(idx - window))
    ensures JoinedAt(" ", texts[MaxZero(idx - window)..idx + 1], w)
  {
    var part := texts[MaxZero(idx - window)..idx + 1];
    assert part[0] == texts[MaxZero(idx - window)] && part[|part| - 1] == texts[idx];
    JoinParts(" ", part);
    Join(" ", part)
  }

  /** The sliding window over JSON splits: with a positive window and at least two
      splits, element `idx` becomes the " "-join of splits `max(0, idx-window) .. idx`;
      otherwise the texts are left as they are. */
  function Overlap(texts: seq<string>, window: int): (r: seq<string>)
    ensures |r| == |texts|
    ensures window <= 0 || |texts| <= 1 ==> r == texts
    ensures window > 0 && |texts| > 1 ==> forall idx :: 0 <= idx < |texts| ==>
              && EndsWith(r[idx], texts[idx])
              && texts[MaxZero(idx - window)] <= r[idx]
              && |r[idx]| == TotalLength(texts[MaxZero(idx - window)..idx + 1]) + (idx - MaxZero(idx - window))
              && JoinedAt(" ", texts[MaxZero(idx - window)..idx + 1], r[idx])
  {
    if window > 0 && |texts| > 1 then
      seq(|texts|, idx requires 0 <= idx < |texts| => Window(texts, window, idx))
    else texts
  }

  /** With a window of one, every split after the first is glued to its predecessor. */
  lemma OverlapWindowOne(texts: seq<string>, idx: nat)
    requires 1 <= idx < |texts|
    ensures Overlap(texts, 1)[idx] == texts[idx - 1] + " " + texts[idx]
  {
    var part := texts[idx - 1..idx + 1];
    assert Overlap(texts, 1)[idx] == Window(texts, 1, idx) == Join(" ", part);
    assert part[..1] == [texts[idx - 1]];
    assert Join(" ", part) == Join(" ", part[..1]) + " " + part[1];
  }

  /** With a window of two, every split from the third on is glued to its two predecessors. */
  lemma OverlapWindowTwo(texts: seq<string>, idx: nat)
    requires 2 <= idx < |texts|
    ensures Overlap(texts, 2)[idx] == texts[idx - 2] + " " + texts[idx - 1] + " " + texts[idx]
  {
    var part := texts[idx - 2..idx + 1];
    assert Overlap(texts, 2)[idx] == Window(texts, 2, idx) == Join(" ", part);
    assert part[..2][..1] == [texts[idx - 2]] && part[..3][..2] == part[..2] && part[..3] == part;
    assert Join(" ", part[..2]) == Join(" ", part[..2][..1]) + " " + part[1];
    assert Join(" ", part) == Join(" ", part[..2]) + " " + part[2];
  }

  /** The chunk sequence every path promises: valid chunks of this document, with no
      embedding yet, in strictly increasing index order. */
  predicate WellFormedChunks(doc: Document, cs: seq<Chunk>) {
    && (forall k :: 0 <= k < |cs| ==>
          ValidChunk(cs[k]) && cs[k].doc_id == doc.id && cs[k].chunk_index >= 0 && cs[k].embedding == None)
    && (forall j, k :: 0 <= j < k < |cs| ==> cs[j].chunk_index < cs[k].chunk_index)
  }

  /** `_json_chunking`: split structurally, overlap the split texts (metadata stays with its
      split), then filter and index. If the splitter fails, fall back to recursive text
      splitting. */
  function JsonChunks(doc: Document, config: ProcessingConfig, sp: Splitters): (r: Result<seq<Chunk>>)
    ensures r.Success? ==> WellFormedChunks(doc, r.value)
    ensures sp.json(doc.content, config.chunk_size).Failure? ==> r == TextChunks(doc, config, sp, RECURSIVE)
    ensures sp.json(doc.content, config.chunk_size).Success? ==>
              var splits := sp.json(doc.content, config.chunk_size).value;
              r == Success(CreateChunksJson(Overlap(SplitTexts(splits), config.chunk_overlap), SplitMetas(splits), doc, config))
  {
    match sp.json(doc.content, config.chunk_size)
    case Failure(_) => TextChunks(doc, config, sp, RECURSIVE)
    case Success(splits) =>
      Success(CreateChunksJson(Overlap(SplitTexts(splits), config.chunk_overlap), SplitMetas(splits), doc, config))
  }

  /** When the JSON splitter succeeds, every chunk is the stripped overlapped split at its
      index, carrying the configured method and that split's merged metadata. */
  lemma JsonChunksFromSplits(doc: Document, config: ProcessingConfig, sp: Splitters)
    requires sp.json(doc.content, config.chunk_size).Success?
    ensures var splits := sp.json(doc.content, config.chunk_size).value;
            var r := JsonChunks(doc, config, sp);
            && r.Success?
            && |r.value| <= |splits|
            && forall k :: 0 <= k < |r.value| ==>
                 && 0 <= r.value[k].chunk_index < |splits|
                 && r.value[k].chunking_method == config.chunking_method
                 && r.value[k].content == Strip(Overlap(SplitTexts(splits), config.chunk_overlap)[r.value[k].chunk_index])
                 && r.value[k].metadata == JsonMetadata(doc, Overlap(SplitTexts(splits), config.chunk_overlap)[r.value[k].chunk_index], splits[r.value[k].chunk_index].metadata)
  {
    var splits := sp.json(doc.content, config.chunk_size).value;
    var texts := Overlap(SplitTexts(splits), config.chunk_overlap);
    var metas := SplitMetas(splits);
    var cs := CreateChunksJson(texts, metas, doc, config);
    forall k | 0 <= k < |cs|
      ensures 0 <= cs[k].chunk_index < |splits|
      ensures cs[k].metadata == JsonMetadata(doc, texts[cs[k].chunk_index], splits[cs[k].chunk_index].metadata)
    {
      assert FromText(texts, JsonMetas(doc, texts, metas), doc, config, cs[k]);
    }
  }

  /** The metadata of each split, in order. */
  function SplitMetas(splits: seq<JsonSplit>): (ms: seq<Metadata>)
    ensures |ms| == |splits|
    ensures forall i :: 0 <= i < |splits| ==> ms[i] == splits[i].metadata
  {
    seq(|splits|, i requires 0 <= i < |splits| => splits[i].metadata)
  }

  /** The texts of the JSON splitter's fragments. The PDF reader's page texts are the same
      projection over a different record; the two modules do not depend on each other,
      so each keeps its own. */
  function SplitTexts(splits: seq<JsonSplit>): (ts: seq<string>)
    ensures |ts| == |splits|
    ensures forall i :: 0 <= i < |splits| ==> ts[i] == splits[i].text
  {
    seq(|splits|, i requires 0 <= i < |splits| => splits[i].text)
  }

  /** One of the four LangChain text splitters followed by `_create_chunks`. */
  function TextChunks(doc: Document, config: ProcessingConfig, sp: Splitters, m: ChunkingMethod): (r: Result<seq<Chunk>>)
    ensures r.Success? ==> WellFormedChunks(doc, r.value)
    ensures r.Success? <==> sp.text(m, doc.content, config.chunk_size, config.chunk_overlap).Success?
    ensures r.Failure? ==> r.error == sp.text(m, doc.content, config.chunk_size, config.chunk_overlap).error
    ensures r.Success? ==>
              && |r.value| <= |sp.text(m, doc.content, config.chunk_size, config.chunk_overlap).value|
              && forall k :: 0 <= k < |r.value| ==>
                   0 <= r.value[k].chunk_index < |sp.text(m, doc.content, config.chunk_size, config.chunk_overlap).value|
                   && r.value[k].content == Strip(sp.text(m, doc.content, config.chunk_size, config.chunk_overlap).value[r.value[k].chunk_index])
    ensures r.Success? ==> r.value == CreateChunks(sp.text(m, doc.content, config.chunk_size, config.chunk_overlap).value, doc, config)
  {
    var texts :- sp.text(m, doc.content, config.chunk_size, config.chunk_overlap);
    Success(CreateChunks(texts, doc, config))
  }

  /** Every chunk of a successful tabular chunking is a valid chunk of the document,
      without embedding, and the indices strictly increase. */
  lemma TabularChunksOfWellFormed(doc: Document, sp: Splitters, table: Table)
    requires TabularChunksOf(doc, sp, table).Success?
    ensures WellFormedChunks(doc, TabularChunksOf(doc, sp, table).value)
  {
    var cs := TabularChunksOf(doc, sp, table).value;
    var columns := ColumnNames(table.width);
    var dicts := RowDicts(table);
    var spans := PackRows(RowSizes(sp, dicts), MaxBytes);
    var steps := seq(|spans|, k requires 0 <= k < |spans| => TabularChunk(doc, sp, columns, dicts, spans[k]));
    forall k | 0 <= k < |cs|
      ensures ValidChunk(cs[k]) && cs[k].doc_id == doc.id && cs[k].chunk_index >= 0 && cs[k].embedding == None
    {
      assert steps[k] == Success(cs[k]);
    }
    TabularChunksPartition(doc, sp, table);
  }

  lemma TabularWellFormed(doc: Document, sp: Splitters)
    ensures TabularChunks(doc, sp).Success? ==> WellFormedChunks(doc, TabularChunks(doc, sp).value)
  {
    var parsed := sp.readTable(doc.content, Separator(doc));
    if parsed.Success? && TabularChunksOf(doc, sp, parsed.value).Success? {
      TabularChunksOfWellFormed(doc, sp, parsed.value);
    }
  }

  /** `chunk_document`. CSV and TSV documents always take the tabular path and JSON
      documents the JSON path, whatever the configured method; any other document goes to
      the configured text splitter, and the JSON method has no branch there, so it fails
      with "Unknown chunking method". Whatever path is taken, a successful result holds
      valid chunks (content of at least 20 characters) of this document, without
      embeddings, in strictly increasing index order. */
  function ChunkDocument(doc: Document, config: ProcessingConfig, sp: Splitters): (r: Result<seq<Chunk>>)
    ensures doc.file_type in {CSV, TSV} ==> r == TabularChunks(doc, sp)
    ensures doc.file_type == FileType.JSON ==> r == JsonChunks(doc, config, sp)
    ensures doc.file_type in {PDF, TXT} && config.chunking_method == ChunkingMethod.JSON ==>
              r == Failure(UnknownChunkingMethod("json"))
    ensures doc.file_type in {PDF, TXT} && config.chunking_method != ChunkingMethod.JSON ==>
              r == TextChunks(doc, config, sp, config.chunking_method)
    ensures r.Success? ==> WellFormedChunks(doc, r.value)
  {
    TabularWellFormed(doc, sp);
    FileTypeRoute(doc.file_type);
    if doc.file_type.Value() in ["csv", "tsv", "tsv#"] then TabularChunks(doc, sp)
    else if doc.file_type.Value() == "json" then JsonChunks(doc, config, sp)
    else MethodChunks(doc, config, sp)
  }

  /** Which file-type values the dispatch sends to the tabular and the JSON paths. */
  lemma FileTypeRoute(t: FileType)
    ensures t.Value() in ["csv", "tsv", "tsv#"] <==> t in {CSV, TSV}
    ensures t.Value() == "json" <==> t == FileType.JSON
  {
    match t
    case PDF => assert t.Value()[0] == 'p';
    case TXT => assert t.Value()[0] == 't' && t.Value()[1] == 'x';
    case JSON => assert t.Value()[0] == 'j';
    case CSV => assert t.Value()[0] == 'c';
    case TSV => assert t.Value() == ["csv", "tsv", "tsv#"][1];
  }

  /** The branch on the configured method for documents that are neither tabular nor
      JSON: the four text splitters, and "Unknown chunking method" for the JSON method. */
  function MethodChunks(doc: Document, config: ProcessingConfig, sp: Splitters): (r: Result<seq<Chunk>>)
    ensures config.chunking_method == ChunkingMethod.JSON ==> r == Failure(UnknownChunkingMethod("json"))
    ensures config.chunking_method != ChunkingMethod.JSON ==> r == TextChunks(doc, config, sp, config.chunking_method)
  {
    if config.chunking_method == RECURSIVE then TextChunks(doc, config, sp, RECURSIVE)
    else if config.chunking_method == CHARACTER then TextChunks(doc, config, sp, CHARACTER)
    else if config.chunking_method == TOKEN then TextChunks(doc, config, sp, TOKEN)
    else if config.chunking_method == SENTENCE then TextChunks(doc, config, sp, SENTENCE)
    else Failure(UnknownChunkingMethod(config.chunking_method.Value()))
  }

  /** Indices are not contiguous: a dropped fragment leaves a gap. Splitting into a short
      fragment followed by a long one yields a single chunk with index 1. */
  lemma DroppedFragmentLeavesGap(doc: Document, config: ProcessingConfig)
    ensures var r := CreateChunks(["tiny", "a fragment long enough to keep"], doc, config);
            |r| == 1 && r[0].chunk_index == 1
  {
    var texts := ["tiny", "a fragment long enough to keep"];
    assert !Keep(texts[0]) by {
      assert |Strip(texts[0])| <= |texts[0]| == 4;
    }
    assert Keep(texts[1]) by {
      StripUnchanged(texts[1]);
    }
    OnlySecondKept(texts, doc, config);
  }

  /** Of two texts, when only the second is kept, the single chunk has index 1. */
  lemma OnlySecondKept(texts: seq<string>, doc: Document, config: ProcessingConfig)
    requires |texts| == 2 && !Keep(texts[0]) && Keep(texts[1])
    ensures var r := CreateChunks(texts, doc, config);
            |r| == 1 && r[0].chunk_index == 1
  {
    var r := CreateChunks(texts, doc, config);
    var ms := BaseMetas(doc, texts);
    forall k | 0 <= k < |r|
      ensures r[k].chunk_index == 1
    {
      assert FromText(texts, ms, doc, config, r[k]);
    }
    assert |r| >= 1 by {
      CreateChunksExactly(texts, doc, config, 1);
    }
    var ids := seq(|r|, k requires 0 <= k < |r| => r[k].chunk_index);
    IncreasingBounded(ids, 1, 2);
  }

  /** Strictly increasing values drawn from `[lo, hi)` number at most `hi - lo`. */
  lemma {:induction false} IncreasingBounded(xs: seq<int>, lo: int, hi: int)
    requires forall k :: 0 <= k < |xs| ==> lo <= xs[k] < hi
    requires forall j, k :: 0 <= j < k < |xs| ==> xs[j] < xs[k]
    ensures |xs| <= hi - lo || xs == []
  {
    if xs != [] {
      var tail := xs[1..];
      assert forall k :: 0 <= k < |tail| ==> tail[k] == xs[k + 1];
      IncreasingBounded(tail, xs[0] + 1, hi);
    }
  }

  /** A text with no whitespace at either end is its own stripped form. */
  lemma StripUnchanged(s: string)
    requires s != [] && !IsSpace(s[0]) && !IsSpace(s[|s| - 1])
    ensures Strip(s) == s
  {
    assert Lead(s) == 0;
    assert TrailEnd(s, 0) == |s|;
  }
}

=== FILE: doc_reader.dfy ===
/** The document loader: a path becomes a validated `Document`. The extension picks the
    file type and the loader; the PDF parser, file reads and the CSV reader are foreign and
    appear as functions of `FileSystem`. The generated identifier is a parameter. */
module DocReader {
  import opened Results
  import opened Models
  import opened Text
  import Paths

  /** One page produced by the PDF loader. */
  datatype Page = Page(text: string, metadata: Metadata)

  /** A table read with a header row: its column names and its text written back with the
      same separator and without the index column. */
  datatype Frame = Frame(columns: seq<string>, text: string)

  /** What reading a table gives: the frame, or the text `str(e)` of the exception raised. */
  datatype FrameRead = FrameRead(frame: Frame) | FrameRaised(message: string)

  /** The file system and parsers the loader relies on; `None` stands for a raised exception,
      and a table reader that raises reports its message.
      - `present(p)`: `Path(p).exists()`.
      - `readText(p)`: reading the whole file as UTF-8 text.
      - `pdfPages(p)`: `PyPDFLoader(p).load()`.
      - `readFrame(p, sep)`: `pd.read_csv(p, sep=sep)` then `to_csv(index=False, sep=sep)`. */
  datatype FileSystem = FileSystem(
    present: string -> bool,
    readText: string -> Option<string>,
    pdfPages: string -> Option<seq<Page>>,
    readFrame: (string, string) -> FrameRead)

  /** `path.suffix.lower().replace(".", "")`: the extension without its dot. */
  function Extension(p: string): (ext: string)
    ensures Paths.Suffix(p) == [] ==> ext == []
    ensures Paths.Suffix(p) != [] ==> ext == Lower(Paths.Suffix(p))[1..]
  {
    var low := Lower(Paths.Suffix(p));
    LowerKeepsDots(Paths.Suffix(p));
    DropLeadingDot(low);
    Without(low, '.')
  }

  /** Lower-casing neither creates nor removes dots. */
  lemma LowerKeepsDots(s: string)
    ensures forall k :: 0 <= k < |s| ==> (Lower(s)[k] == '.' <==> s[k] == '.')
  {
  }

  /** Removing the dots from a suffix drops exactly its leading dot. */
  lemma DropLeadingDot(s: string)
    requires s != [] ==> s[0] == '.' && '.' !in s[1..]
    ensures s == [] ==> Without(s, '.') == []
    ensures s != [] ==> Without(s, '.') == s[1..]
  {
    if s != [] {
      WithoutAbsent(s[1..], '.');
    }
  }

  lemma {:induction false} WithoutAbsent(s: string, c: char)
    ensures c !in s ==> Without(s, c) == s
  {
    if s != [] {
      WithoutAbsent(s[1..], c);
    }
  }

  /** The extension-to-type mapping as written. Its last test, `ext == "tsv" or "tsv#"`,
      is always true because the non-empty string "tsv#" is truthy, so every extension
      that is not pdf, txt, json or csv is read as TSV and the "Unsupported file type"
      branch is dead: the mapping never fails. */
  function DetectFileType(ext: string): (r: Result<FileType>)
    ensures r.Success?
    ensures r.value == PDF <==> ext == "pdf"
    ensures r.value == TXT <==> ext == "txt"
    ensures r.value == FileType.JSON <==> ext == "json"
    ensures r.value == CSV <==> ext == "csv"
  {
    if ext == "pdf" then Success(PDF)
    else if ext == "txt" then Success(TXT)
    else if ext == "json" then Success(FileType.JSON)
    else if ext == "csv" then Success(CSV)
    else if ext == "tsv" || "tsv#" != "" then Success(TSV)
    else Failure(UnsupportedFileType(ext))
  }

  /** An extension no file type carries, such as "docx", is accepted and labelled TSV. */
  lemma UnknownExtensionReadAsTsv()
    ensures ParseFileType("docx") == None
    ensures DetectFileType("docx") == Success(TSV)
  {
  }

  /** The mapping the branch structure evidently intends: exactly the five type values are
      accepted, and anything else is reported as unsupported. */
  function DetectFileTypeIntended(ext: string): (r: Result<FileType>)
    ensures r.Success? <==> ParseFileType(ext).Some?
    ensures r.Success? ==> r.value.Value() == ext
    ensures r.Failure? ==> r.error == UnsupportedFileType(ext)
  {
    FileTypeValues();
    match ParseFileType(ext)
    case Some(t) => Success(t)
    case None => Failure(UnsupportedFileType(ext))
  }

  /** Both mappings recognise every file type from its own value, and they agree on every
      extension the intended one accepts. */
  lemma DetectFileTypeAgreement(ext: string)
    ensures forall t: FileType :: DetectFileType(t.Value()) == Success(t)
    ensures forall t: FileType :: DetectFileTypeIntended(t.Value()) == Success(t)
    ensures DetectFileTypeIntended(ext).Success? ==> DetectFileTypeIntended(ext) == DetectFileType(ext)
  {
    FileTypeValues();
    forall t: FileType
      ensures DetectFileType(t.Value()) == Success(t)
    {
      match t
      case PDF =>
      case TXT =>
      case JSON =>
      case CSV =>
      case TSV =>
    }
  }

  /** `load_pdf`: the page texts joined by newlines; the metadata is the first page's, or
      empty when the PDF has no pages. */
  function LoadPdf(fs: FileSystem, path: string, docId: string): (r: Result<Document>)
    ensures fs.pdfPages(path).None? ==> r == Failure(LibraryError("pdf"))
    ensures fs.pdfPages(path) == Some([]) ==> r == Failure(ValidationError("content"))
    ensures r.Success? ==> fs.pdfPages(path).Some? && fs.pdfPages(path).value != []
    ensures r.Success? ==> PdfContent(fs.pdfPages(path).value, r.value)
    ensures fs.pdfPages(path).Some? ==>
              (r.Success? <==> |Join("\n", PageTexts(fs.pdfPages(path).value))| >= DocumentMinLength)
  {
    match fs.pdfPages(path)
    case None => Failure(LibraryError("pdf"))
    case Some(pages) =>
      var content := Join("\n", PageTexts(pages));
      var metadata := if pages != [] then pages[0].metadata else map[];
      if pages == [] then MkDocument(docId, Paths.Stem(path), content, PDF, metadata)
      else
        PagesJoined(pages);
        MkDocument(docId, Paths.Stem(path), content, PDF, metadata)
  }

  /** The newline-joined page texts start with the first page, end with the last, and
      add one character between neighbours. */
  lemma PagesJoined(pages: seq<Page>)
    requires pages != []
    ensures var c := Join("\n", PageTexts(pages));
            && pages[0].text <= c
            && EndsWith(c, pages[|pages| - 1].text)
            && |c| == TotalLength(PageTexts(pages)) + |pages| - 1
            && JoinedAt("\n", PageTexts(pages), c)
  {
    var ts := PageTexts(pages);
    JoinParts("\n", ts);
    assert ts[0] == pages[0].text && ts[|ts| - 1] == pages[|pages| - 1].text;
    assert (|ts| - 1) * |"\n"| == |ts| - 1;
  }

  /** The document of a PDF holds the page texts in order, one newline between
      neighbours: it starts with the first page's text, ends with the last page's, and
      every page sits where `JoinedAt` places it. It carries the first page's metadata. */
  predicate PdfContent(pages: seq<Page>, d: Document)
    requires pages != []
  {
    && pages[0].text <= d.content
    && EndsWith(d.content, pages[|pages| - 1].text)
    && |d.content| == TotalLength(PageTexts(pages)) + |pages| - 1
    && JoinedAt("\n", PageTexts(pages), d.content)
    && d.metadata == pages[0].metadata
    && d.file_type == PDF
  }

  /** The texts of the pages, in page order. The chunker's fragment texts are the same
      projection over a different record; the two modules do not depend on each other,
      so each keeps its own. */
  function PageTexts(pages: seq<Page>): (ts: seq<string>)
    ensures |ts| == |pages|
    ensures forall i :: 0 <= i < |pages| ==> ts[i] == pages[i].text
  {
    seq(|pages|, i requires 0 <= i < |pages| => pages[i].text)
  }

  /** `load_txt` and `load_json`: the raw text, with the path recorded as `source`. */
  function LoadRaw(fs: FileSystem, path: string, docId: string, fileType: FileType): (r: Result<Document>)
    ensures fs.readText(path).None? ==> r == Failure(LibraryError("read"))
    ensures r.Success? ==> fs.readText(path) == Some(r.value.content) && r.value.file_type == fileType
    ensures r.Success? ==> r.value.metadata == map["source" := JStr(path)]
    ensures fs.readText(path).Some? ==> (r.Success? <==> |fs.readText(path).value| >= DocumentMinLength)
  {
    match fs.readText(path)
    case None => Failure(LibraryError("read"))
    case Some(content) => MkDocument(docId, Paths.Stem(path), content, fileType, map["source" := JStr(path)])
  }

  /** `load_csv_tsv`: read with "," for CSV and a tab otherwise. A reader failure is
      re-raised as "Error loading <type>: <message>"; the `Document` is built outside the
      handler, so a too-short table fails validation unchanged. */
  function LoadTable(fs: FileSystem, path: string, docId: string, fileType: FileType): (r: Result<Document>)
    ensures var sep := if fileType == CSV then "," else "\t";
            && (fs.readFrame(path, sep).FrameRaised? ==>
                  r == Failure(LoadError("Error loading " + fileType.Value() + ": " + fs.readFrame(path, sep).message)))
            && (fs.readFrame(path, sep).FrameRead? ==>
                  (r.Success? <==> |fs.readFrame(path, sep).frame.text| >= DocumentMinLength))
            && (r.Success? ==>
                  && r.value.content == fs.readFrame(path, sep).frame.text
                  && r.value.metadata == map[
                       "source" := JStr(path),
                       "columns" := JStr(Join(",", fs.readFrame(path, sep).frame.columns))])
    ensures r.Success? ==> r.value.file_type == fileType
  {
    var sep := if fileType == CSV then "," else "\t";
    match fs.readFrame(path, sep)
    case FrameRaised(message) => Failure(LoadError("Error loading " + fileType.Value() + ": " + message))
    case FrameRead(frame) =>
      MkDocument(docId, Paths.Stem(path), frame.text, fileType, map[
        "source" := JStr(path),
        "columns" := JStr(Join(",", frame.columns))])
  }

  /** Routes a detected file type to its loader. */
  function LoadAs(fs: FileSystem, path: string, docId: string, fileType: FileType): (r: Result<Document>)
    ensures r.Success? ==> r.value.file_type == fileType && r.value.id == docId && r.value.title == Paths.Stem(path)
    ensures r.Success? ==> ValidDocument(r.value)
    ensures r.Failure? ==> !r.error.UnsupportedFileType?
    ensures fileType == PDF ==> r == LoadPdf(fs, path, docId)
    ensures fileType in {TXT, FileType.JSON} ==> r == LoadRaw(fs, path, docId, fileType)
    ensures fileType in {CSV, TSV} ==> r == LoadTable(fs, path, docId, fileType)
  {
    match fileType
    case PDF => LoadPdf(fs, path, docId)
    case TXT => LoadRaw(fs, path, docId, TXT)
    case JSON => LoadRaw(fs, path, docId, FileType.JSON)
    case CSV => LoadTable(fs, path, docId, CSV)
    case TSV => LoadTable(fs, path, docId, TSV)
  }

  /** `load_document` as written: a missing file is reported first; otherwise the detected
      type picks the loader. Because detection never rejects an extension, loading never
      fails with "Unsupported file type"; a file of unknown extension is read as TSV. */
  function LoadDocument(fs: FileSystem, path: string, docId: string): (r: Result<Document>)
    ensures !fs.present(path) ==> r == Failure(FileNotFound(path))
    ensures r.Success? ==>
              && r.value.id == docId && r.value.title == Paths.Stem(path)
              && Success(r.value.file_type) == DetectFileType(Extension(path))
              && ValidDocument(r.value)
    ensures r.Failure? ==> !r.error.UnsupportedFileType?
    ensures fs.present(path) ==> r == LoadAs(fs, path, docId, DetectFileType(Extension(path)).value)
  {
    if !fs.present(path) then Failure(FileNotFound(path))
    else LoadAs(fs, path, docId, DetectFileType(Extension(path)).value)
  }

  /** An existing PDF whose joined page text reaches the minimum length loads: the
      document holds exactly that text and the first page's metadata. */
  lemma ReadablePdfLoads(fs: FileSystem, path: string, docId: string)
    requires fs.present(path) && DetectFileType(Extension(path)) == Success(PDF)
    requires fs.pdfPages(path).Some?
    requires |Join("\n", PageTexts(fs.pdfPages(path).value))| >= DocumentMinLength
    ensures var r := LoadDocument(fs, path, docId);
            && r.Success?
            && r.value.content == Join("\n", PageTexts(fs.pdfPages(path).value))
            && r.value.metadata == fs.pdfPages(path).value[0].metadata
            && r.value.file_type == PDF
  {
  }

  /** An existing CSV or TSV file that the reader parses into a table whose text reaches
      the minimum length loads: the document holds that text, the path and the columns. */
  lemma ReadableTableLoads(fs: FileSystem, path: string, docId: string)
    requires fs.present(path)
    requires DetectFileType(Extension(path)) in {Success(CSV), Success(TSV)}
    requires var fileType := DetectFileType(Extension(path)).value;
             var sep := if fileType == CSV then "," else "\t";
             fs.readFrame(path, sep).FrameRead? && |fs.readFrame(path, sep).frame.text| >= DocumentMinLength
    ensures var fileType := DetectFileType(Extension(path)).value;
            var frame := fs.readFrame(path, if fileType == CSV then "," else "\t").frame;
            var r := LoadDocument(fs, path, docId);
            && r.Success?
            && r.value.content == frame.text
            && r.value.file_type == fileType
            && r.value.metadata == map["source" := JStr(path), "columns" := JStr(Join(",", frame.columns))]
  {
  }

  /** `load_document` with the intended detection: an extension that names no file type
      is rejected before any file is read. */
  function LoadDocumentIntended(fs: FileSystem, path: string, docId: string): (r: Result<Document>)
    ensures !fs.present(path) ==> r == Failure(FileNotFound(path))
    ensures fs.present(path) && ParseFileType(Extension(path)).None? ==>
              r == Failure(UnsupportedFileType(Extension(path)))
    ensures r.Success? ==>
              && r.value.id == docId && r.value.title == Paths.Stem(path)
              && r.value.file_type.Value() == Extension(path)
              && ValidDocument(r.value)
  {
    if !fs.present(path) then Failure(FileNotFound(path))
    else
      var fileType :- DetectFileTypeIntended(Extension(path));
      LoadAs(fs, path, docId, fileType)
  }

  /** The two loaders differ only on files whose extension names no file type: wherever
      the intended loader does not report an unsupported type, both give the same result. */
  lemma LoadersAgreeOnKnownTypes(fs: FileSystem, path: string, docId: string)
    ensures ParseFileType(Extension(path)).Some? || !fs.present(path) ==>
              LoadDocument(fs, path, docId) == LoadDocumentIntended(fs, path, docId)
  {
    DetectFileTypeAgreement(Extension(path));
  }

  /** The extension of "notes.docx" is "docx". */
  lemma NotesDocxExtension()
    ensures Extension("notes.docx") == "docx"
  {
    var p := "notes.docx";
    assert forall k :: 0 <= k < |p| ==> p[k] != '/';
    assert Paths.RFind(p, '/') == -1;
    assert Paths.Name(p) == p;
    assert p[5] == '.';
    assert forall k :: 5 < k < |p| ==> p[k] != '.';
    assert Paths.RFind(p, '.') == 5;
    assert Paths.Suffix(p) == ".docx";
    assert Lower(".docx")[1..] == "docx";
  }

  /** A document named "notes.docx" whose file exists is rejected by the intended loader,
      but the loader as written hands it to the TSV reader. */
  lemma DocxGoesToTsvReader(fs: FileSystem, docId: string)
    requires fs.present("notes.docx")
    ensures Extension("notes.docx") == "docx"
    ensures LoadDocumentIntended(fs, "notes.docx", docId) == Failure(UnsupportedFileType("docx"))
    ensures LoadDocument(fs, "notes.docx", docId) == LoadTable(fs, "notes.docx", docId, TSV)
  {
    NotesDocxExtension();
    assert DetectFileType("docx") == Success(TSV);
    assert DetectFileTypeIntended("docx") == Failure(UnsupportedFileType("docx"));
  }
}

=== FILE: models.dfy ===
/** The pipeline's data model: the enumerations, the processing configuration with its
    defaults, and the validated records `Document`, `Chunk` and `SearchResult`. A pydantic
    constructor that may reject its arguments is modelled as a function returning a
    `Result`; the records themselves are plain datatypes. */
module Models {
  import opened Results
  import Text

  /** The JSON-like values held in open metadata maps and in exported records. */
  datatype Json = JNull | JInt(i: int) | JReal(r: real) | JStr(s: string) | JList(items: seq<Json>)

  type Metadata = map<string, Json>

  /** The supported file types. The TSV member's value is written `"tsv" or "tsv#"` in the
      source; that expression evaluates to "tsv", so there are exactly five values. */
  datatype FileType = PDF | TXT | JSON | CSV | TSV {
    function Value(): string {
      match this
      case PDF => "pdf"
      case TXT => "txt"
      case JSON => "json"
      case CSV => "csv"
      case TSV => "tsv"
    }
  }

  const AllFileTypes: seq<FileType> := [PDF, TXT, FileType.JSON, CSV, TSV]

  /** Enum lookup by value, `FileType(s)`. */
  function ParseFileType(s: string): Option<FileType> {
    if s == "pdf" then Some(PDF)
    else if s == "txt" then Some(TXT)
    else if s == "json" then Some(FileType.JSON)
    else if s == "csv" then Some(CSV)
    else if s == "tsv" then Some(TSV)
    else None
  }

  /** The five file types have five distinct values, lookup by value inverts `Value`,
      and no file type has the value "tsv#". */
  lemma FileTypeValues()
    ensures forall t: FileType :: t in AllFileTypes
    ensures forall i, j :: 0 <= i < j < |AllFileTypes| ==> AllFileTypes[i].Value() != AllFileTypes[j].Value()
    ensures forall t: FileType :: ParseFileType(t.Value()) == Some(t)
    ensures forall s, t :: ParseFileType(s) == Some(t) ==> t.Value() == s
    ensures forall t: FileType :: t.Value() != "tsv#"
  {
    FileTypeValuesDistinct();
    FileTypeLookup();
    forall t: FileType
      ensures t in AllFileTypes
    {
      match t
      case PDF => assert AllFileTypes[0] == t;
      case TXT => assert AllFileTypes[1] == t;
      case JSON => assert AllFileTypes[2] == t;
      case CSV => assert AllFileTypes[3] == t;
      case TSV => assert AllFileTypes[4] == t;
    }
  }

  lemma FileTypeValuesDistinct()
    ensures forall i, j :: 0 <= i < j < |AllFileTypes| ==> AllFileTypes[i].Value() != AllFileTypes[j].Value()
    ensures forall t: FileType :: t.Value() != "tsv#"
  {
  }

  lemma FileTypeLookup()
    ensures forall t: FileType :: ParseFileType(t.Value()) == Some(t)
    ensures forall s, t :: ParseFileType(s) == Some(t) ==> t.Value() == s
  {
    forall t: FileType
      ensures ParseFileType(t.Value()) == Some(t)
    {
      match t
      case PDF =>
      case TXT => assert t.Value()[0] == 't';
      case JSON => assert t.Value()[0] == 'j';
      case CSV => assert t.Value()[0] == 'c';
      case TSV => assert t.Value()[0] == 't' && t.Value()[1] == 's';
    }
  }

  datatype ChunkingMethod = RECURSIVE | CHARACTER | TOKEN | SENTENCE | JSON {
    function Value(): string {
      match this
      case RECURSIVE => "recursive"
      case CHARACTER => "character"
      case TOKEN => "token"
      case SENTENCE => "sentence"
      case JSON => "json"
    }
  }

  const AllChunkingMethods: seq<ChunkingMethod> := [RECURSIVE, CHARACTER, TOKEN, SENTENCE, ChunkingMethod.JSON]

  /** Enum lookup by value, `ChunkingMethod(s)`; also how pydantic coerces a string field. */
  function ParseChunkingMethod(s: string): Option<ChunkingMethod> {
    if s == "recursive" then Some(RECURSIVE)
    else if s == "character" then Some(CHARACTER)
    else if s == "token" then Some(TOKEN)
    else if s == "sentence" then Some(SENTENCE)
    else if s == "json" then Some(ChunkingMethod.JSON)
    else None
  }

  /** The five chunking methods have five distinct values and lookup by value inverts `Value`. */
  lemma ChunkingMethodValues()
    ensures forall m: ChunkingMethod :: m in AllChunkingMethods
    ensures forall i, j :: 0 <= i < j < |AllChunkingMethods| ==> AllChunkingMethods[i].Value() != AllChunkingMethods[j].Value()
    ensures forall m: ChunkingMethod :: ParseChunkingMethod(m.Value()) == Some(m)
    ensures forall s, m :: ParseChunkingMethod(s) == Some(m) ==> m.Value() == s
  {
    ChunkingMethodValuesDistinct();
    ChunkingMethodLookup();
    forall m: ChunkingMethod
      ensures m in AllChunkingMethods
    {
      match m
      case RECURSIVE => assert AllChunkingMethods[0] == m;
      case CHARACTER => assert AllChunkingMethods[1] == m;
      case TOKEN => assert AllChunkingMethods[2] == m;
      case SENTENCE => assert AllChunkingMethods[3] == m;
      case JSON => assert AllChunkingMethods[4] == m;
    }
  }

  lemma ChunkingMethodValuesDistinct()
    ensures forall i, j :: 0 <= i < j < |AllChunkingMethods| ==> AllChunkingMethods[i].Value() != AllChunkingMethods[j].Value()
  {
  }

  lemma ChunkingMethodLookup()
    ensures forall m: ChunkingMethod :: ParseChunkingMethod(m.Value()) == Some(m)
    ensures forall s, m :: ParseChunkingMethod(s) == Some(m) ==> m.Value() == s
  {
    forall m: ChunkingMethod
      ensures ParseChunkingMethod(m.Value()) == Some(m)
    {
      match m
      case RECURSIVE =>
      case CHARACTER => assert m.Value()[0] == 'c';
      case TOKEN => assert m.Value()[0] == 't';
      case SENTENCE => assert m.Value()[0] == 's';
      case JSON => assert m.Value()[0] == 'j';
    }
  }

  datatype EmbeddingModel = SENTENCE_TRANSFORMER | HUGGINGFACE {
    function Value(): string {
      match this
      case SENTENCE_TRANSFORMER => "sentence_transformer"
      case HUGGINGFACE => "huggingface"
    }
  }

  datatype ProcessingConfig = ProcessingConfig(
    chunking_method: ChunkingMethod,
    chunk_size: int,
    chunk_overlap: int,
    embedding_model: EmbeddingModel)

  /** `ProcessingConfig()` with every field left at its default. */
  const DefaultConfig := ProcessingConfig(RECURSIVE, 1024, 254, SENTENCE_TRANSFORMER)

  const DocumentMinLength: nat := 50
  const ChunkMinLength: nat := 20

  datatype Document = Document(
    id: string,
    title: string,
    content: string,
    file_type: FileType,
    metadata: Metadata)

  datatype Chunk = Chunk(
    id: string,
    doc_id: string,
    content: string,
    chunk_index: int,
    chunking_method: ChunkingMethod,
    embedding: Option<seq<real>>,
    metadata: Metadata)

  datatype SearchResult = SearchResult(
    chunk: Chunk,
    similarity_score: real,
    distance: real,
    rank: int)

  predicate ValidDocument(d: Document) {
    |d.content| >= DocumentMinLength
  }

  predicate ValidChunk(c: Chunk) {
    |c.content| >= ChunkMinLength
  }

  /** `Document(...)`: pydantic rejects content shorter than 50 characters. */
  function MkDocument(id: string, title: string, content: string, fileType: FileType, metadata: Metadata): (r: Result<Document>)
    ensures r.Success? <==> |content| >= DocumentMinLength
    ensures r.Success? ==> ValidDocument(r.value) && r.value == Document(id, title, content, fileType, metadata)
    ensures r.Failure? ==> r.error == ValidationError("content")
  {
    if |content| >= DocumentMinLength then Success(Document(id, title, content, fileType, metadata))
    else Failure(ValidationError("content"))
  }

  /** `Chunk(...)` with well-typed arguments: pydantic rejects content shorter than
      20 characters, and the embedding starts absent. */
  function MkChunk(id: string, docId: string, content: string, index: int, chunkMethod: ChunkingMethod, metadata: Metadata): (r: Result<Chunk>)
    ensures r.Success? <==> |content| >= ChunkMinLength
    ensures r.Success? ==> ValidChunk(r.value) && r.value.embedding == None
    ensures r.Success? ==> r.value.id == id && r.value.doc_id == docId && r.value.content == content
    ensures r.Success? ==> r.value.chunk_index == index && r.value.chunking_method == chunkMethod && r.value.metadata == metadata
  {
    if |content| >= ChunkMinLength then Success(Chunk(id, docId, content, index, chunkMethod, None, metadata))
    else Failure(ValidationError("content"))
  }

  /** `Chunk(**kwargs)` from untyped keyword arguments, `None` standing for an argument that
      was not passed. Every required field must be present with the right type; a keyword
      the model does not declare is ignored, so it is not a parameter here. */
  function ValidateChunk(id: Option<Json>, docId: Option<Json>, content: string, index: Option<Json>,
                         methodValue: Option<Json>, metadata: Metadata): (r: Result<Chunk>)
    ensures r.Success? <==>
      && id.Some? && id.value.JStr?
      && docId.Some? && docId.value.JStr?
      && |content| >= ChunkMinLength
      && index.Some? && index.value.JInt?
      && methodValue.Some? && methodValue.value.JStr? && ParseChunkingMethod(methodValue.value.s).Some?
    ensures r.Success? ==> ValidChunk(r.value) && docId == Some(JStr(r.value.doc_id)) && id == Some(JStr(r.value.id))
    ensures r.Success? ==>
              && index == Some(JInt(r.value.chunk_index))
              && methodValue == Some(JStr(r.value.chunking_method.Value()))
              && r.value.content == content && r.value.metadata == metadata && r.value.embedding == None
  {
    ChunkingMethodLookup();
    if id.None? || !id.value.JStr? then Failure(ValidationError("id"))
    else if docId.None? || !docId.value.JStr? then Failure(ValidationError("doc_id"))
    else if index.None? || !index.value.JInt? then Failure(ValidationError("chunk_index"))
    else if methodValue.None? || !methodValue.value.JStr? || ParseChunkingMethod(methodValue.value.s).None? then
      Failure(ValidationError("chunking_method"))
    else MkChunk(id.value.s, docId.value.s, content, index.value.i, ParseChunkingMethod(methodValue.value.s).value, metadata)
  }

  /** The attributes a `Chunk` instance has. */
  const ChunkFields: seq<string> := ["id", "doc_id", "content", "chunk_index", "chunking_method", "embedding", "metadata"]

  /** `getattr(chunk, name)`: reading an attribute the model does not declare raises
      `AttributeError`. */
  function ChunkAttribute(c: Chunk, name: string): (r: Result<Json>)
    ensures r.Success? <==> name in ChunkFields
    ensures name == "doc_id" ==> r == Success(JStr(c.doc_id))
    ensures name == "id" ==> r == Success(JStr(c.id))
  {
    if name == "id" then Success(JStr(c.id))
    else if name == "doc_id" then Success(JStr(c.doc_id))
    else if name == "content" then Success(JStr(c.content))
    else if name == "chunk_index" then Success(JInt(c.chunk_index))
    else if name == "chunking_method" then Success(JStr(c.chunking_method.Value()))
    else if name == "embedding" then
      Success(match c.embedding case None => JNull case Some(v) => JList(seq(|v|, i requires 0 <= i < |v| => JReal(v[i]))))
    else if name == "metadata" then Success(JNull)
    else Failure(AttributeError(name))
  }

  /** The identifier given to the chunk at position `i` of a document: `f"{doc_id}_chunk_{i}"`. */
  function ChunkId(docId: string, i: nat): string {
    docId + "_chunk_" + Text.NatToString(i)
  }

  /** Within one document, different positions give different chunk identifiers. */
  lemma ChunkIdInjective(docId: string, i: nat, j: nat)
    ensures ChunkId(docId, i) == ChunkId(docId, j) ==> i == j
  {
    if ChunkId(docId, i) == ChunkId(docId, j) {
      var n := |docId| + 7;
      assert ChunkId(docId, i)[n..] == Text.NatToString(i);
      assert ChunkId(docId, j)[n..] == Text.NatToString(j);
      Text.NatToStringInjective(i, j);
    }
  }
}

=== FILE: packing.dfy ===
/** Greedy packing of table rows into chunks under a byte budget, the core of tabular
    chunking. Rows are visited in order and accumulated into the current chunk; when the
    next row would take the running byte total over the budget and the chunk already holds
    a row, the chunk is closed and a new one starts at that row; the last chunk is flushed
    at the end. Rows are represented here only by their byte sizes. */
module Packing {
  import opened Batching

  /** The rows `start .. end-1` of one chunk. */
  datatype Span = Span(start: nat, end: nat)

  function Sum(s: seq<nat>): nat {
    if s == [] then 0 else Sum(s[..|s| - 1]) + s[|s| - 1]
  }

  lemma SumSnoc(sizes: seq<nat>, lo: nat, hi: nat)
    requires lo <= hi < |sizes|
    ensures Sum(sizes[lo..hi + 1]) == Sum(sizes[lo..hi]) + sizes[hi]
  {
    assert sizes[lo..hi + 1][..hi - lo] == sizes[lo..hi];
  }

  /** Adding rows never makes a chunk smaller. */
  lemma {:induction false} SumMonotone(sizes: seq<nat>, lo: nat, mid: nat, hi: nat)
    requires lo <= mid <= hi <= |sizes|
    ensures Sum(sizes[lo..mid]) <= Sum(sizes[lo..hi])
    decreases hi - mid
  {
    if mid < hi {
      SumMonotone(sizes, lo, mid, hi - 1);
      SumSnoc(sizes, lo, hi - 1);
    }
  }

  /** Rows `lo .. hi-1` may share a chunk: a single row always may, several rows only
      when their sizes add up to at most the budget. */
  predicate Fits(sizes: seq<nat>, budget: nat, lo: nat, hi: nat)
    requires lo <= hi <= |sizes|
  {
    hi - lo <= 1 || Sum(sizes[lo..hi]) <= budget
  }

  /** The spans are an ordered partition of the rows `lo .. |sizes|-1` into non-empty,
      consecutive runs. */
  predicate Tiles(sizes: seq<nat>, lo: nat, spans: seq<Span>) {
    && (spans == [] <==> lo == |sizes|)
    && (forall k :: 0 <= k < |spans| ==> spans[k].start < spans[k].end <= |sizes|)
    && (spans != [] ==> spans[0].start == lo && spans[|spans| - 1].end == |sizes|)
    && (forall k :: 0 <= k < |spans| - 1 ==> spans[k].end == spans[k + 1].start)
  }

  /** What the greedy packing guarantees: the spans tile the rows, every span fits the
      budget, and no span but the last could have taken the next row as well. */
  predicate Greedy(sizes: seq<nat>, budget: nat, lo: nat, spans: seq<Span>) {
    && Tiles(sizes, lo, spans)
    && (forall k :: 0 <= k < |spans| ==> Fits(sizes, budget, spans[k].start, spans[k].end))
    && (forall k :: 0 <= k < |spans| - 1 ==>
          spans[k].end < |sizes| && Sum(sizes[spans[k].start..spans[k].end]) + sizes[spans[k].end] > budget)
  }

  lemma GreedyCons(sizes: seq<nat>, budget: nat, start: nat, i: nat, rest: seq<Span>)
    requires start < i < |sizes|
    requires Fits(sizes, budget, start, i)
    requires Sum(sizes[start..i]) + sizes[i] > budget
    requires Greedy(sizes, budget, i, rest)
    ensures Greedy(sizes, budget, start, [Span(start, i)] + rest)
  {
    var r := [Span(start, i)] + rest;
    TilesCons(sizes, start, i, rest);
    forall k | 0 <= k < |r|
      ensures Fits(sizes, budget, r[k].start, r[k].end)
    {
      if k > 0 {
        assert r[k] == rest[k - 1];
      }
    }
    forall k | 0 <= k < |r| - 1
      ensures r[k].end < |sizes| && Sum(sizes[r[k].start..r[k].end]) + sizes[r[k].end] > budget
    {
      if k > 0 {
        assert r[k] == rest[k - 1];
      }
    }
  }

  /** A span in front of a tiling of the rows after it tiles from its own start. */
  lemma TilesCons(sizes: seq<nat>, start: nat, i: nat, rest: seq<Span>)
    requires start < i < |sizes|
    requires Tiles(sizes, i, rest)
    ensures Tiles(sizes, start, [Span(start, i)] + rest)
  {
    var r := [Span(start, i)] + rest;
    assert r[|r| - 1] == rest[|rest| - 1];
    assert forall k :: 1 <= k < |r| ==> r[k] == rest[k - 1];
  }

  /** The packing loop, from the state where the current chunk holds rows
      `start .. i-1` whose sizes add up to `running`. */
  function PackFrom(sizes: seq<nat>, budget: nat, start: nat, i: nat, running: nat): (r: seq<Span>)
    requires start <= i <= |sizes|
    requires start < i || i == 0
    requires running == Sum(sizes[start..i])
    requires Fits(sizes, budget, start, i)
    ensures Greedy(sizes, budget, start, r)
    decreases |sizes| - i
  {
    if i == |sizes| then
      if i > start then [Span(start, i)] else []
    else if running + sizes[i] > budget && i > start then
      var rest := PackFrom(sizes, budget, i, i + 1, sizes[i]);
      GreedyCons(sizes, budget, start, i, rest);
      [Span(start, i)] + rest
    else
      SumSnoc(sizes, start, i);
      PackFrom(sizes, budget, start, i + 1, running + sizes[i])
  }

  /** Packs all rows, starting with an empty chunk and a zero running total. */
  function PackRows(sizes: seq<nat>, budget: nat): (spans: seq<Span>)
    ensures Greedy(sizes, budget, 0, spans)
  {
    PackFrom(sizes, budget, 0, 0, 0)
  }

  lemma GreedyTail(sizes: seq<nat>, budget: nat, lo: nat, spans: seq<Span>)
    requires Greedy(sizes, budget, lo, spans)
    requires spans != []
    ensures Greedy(sizes, budget, spans[0].end, spans[1..])
  {
    if |spans| == 1 {
      assert spans[0].end == |sizes|;
    } else {
      assert spans[0].end == spans[1].start < spans[1].end <= |sizes|;
    }
  }

  /** Dropping the first span of a tiling leaves a tiling of the rows after it. */
  lemma TilesTail(sizes: seq<nat>, lo: nat, spans: seq<Span>)
    requires Tiles(sizes, lo, spans)
    requires spans != []
    ensures Tiles(sizes, spans[0].end, spans[1..])
  {
    var tail := spans[1..];
    if |spans| == 1 {
      assert spans[0].end == |sizes|;
    } else {
      assert forall k :: 0 <= k < |tail| ==> tail[k] == spans[k + 1];
      assert tail[0].start == spans[0].end;
      assert tail[|tail| - 1].end == |sizes|;
    }
  }

  /** Two greedy packings of the same rows close their first span at the same row; here
      one direction. */
  lemma FirstSpanNotShorter(sizes: seq<nat>, budget: nat, lo: nat, a: seq<Span>, b: seq<Span>)
    requires Greedy(sizes, budget, lo, a)
    requires Greedy(sizes, budget, lo, b)
    requires lo < |sizes|
    ensures a[0].end >= b[0].end
  {
    var ea, eb := a[0].end, b[0].end;
    if ea < eb {
      assert |a| > 1;
      SumSnoc(sizes, lo, ea);
      SumMonotone(sizes, lo, ea + 1, eb);
      assert false;
    }
  }

  /** The greedy guarantees determine the packing: at most one sequence of spans meets
      them, so `PackRows` is the only packing with these properties. */
  lemma {:induction false} GreedyUnique(sizes: seq<nat>, budget: nat, lo: nat, a: seq<Span>, b: seq<Span>)
    requires Greedy(sizes, budget, lo, a)
    requires Greedy(sizes, budget, lo, b)
    ensures a == b
    decreases |sizes| - lo
  {
    if lo < |sizes| {
      var ea, eb := a[0].end, b[0].end;
      FirstSpanNotShorter(sizes, budget, lo, a, b);
      FirstSpanNotShorter(sizes, budget, lo, b, a);
      GreedyTail(sizes, budget, lo, a);
      GreedyTail(sizes, budget, lo, b);
      GreedyUnique(sizes, budget, ea, a[1..], b[1..]);
      assert a[0] == Span(lo, ea) == b[0];
      SameHeadTail(a, b);
    }
  }

  lemma SameHeadTail<T>(a: seq<T>, b: seq<T>)
    requires a != [] && b != []
    requires a[0] == b[0] && a[1..] == b[1..]
    ensures a == b
  {
    assert a == [a[0]] + a[1..];
    assert b == [b[0]] + b[1..];
  }

  /** The rows each span selects. */
  function Groups<T>(rows: seq<T>, spans: seq<Span>): (g: seq<seq<T>>)
    requires forall k :: 0 <= k < |spans| ==> spans[k].start <= spans[k].end <= |rows|
    ensures |g| == |spans|
  {
    seq(|spans|, k requires 0 <= k < |spans| => rows[spans[k].start..spans[k].end])
  }

  /** Concatenating the rows of a tiling gives back exactly the rows it tiles, in order. */
  lemma {:induction false} GroupsConcat<T>(rows: seq<T>, sizes: seq<nat>, lo: nat, spans: seq<Span>)
    requires |rows| == |sizes|
    requires Tiles(sizes, lo, spans)
    ensures lo <= |rows|
    ensures Flatten(Groups(rows, spans)) == rows[lo..]
    decreases |spans|
  {
    if spans == [] {
    } else {
      var e := spans[0].end;
      var tail := spans[1..];
      TilesTail(sizes, lo, spans);
      GroupsConcat(rows, sizes, e, tail);
      assert Groups(rows, spans)[1..] == Groups(rows, tail);
      assert rows[lo..] == rows[lo..e] + rows[e..];
    }
  }
}

=== FILE: paths.dfy ===
/** The parts of a file path the pipeline inspects, after Python's `pathlib`:
    the final component (`name`), its extension (`suffix`) and the name without
    it (`stem`). Paths use '/' as the separator. */
module Paths {

  /** Python's `s.rfind(c)`: the last index holding `c`, or -1. */
  function RFind(s: string, c: char): (i: int)
    ensures -1 <= i < |s|
    ensures i >= 0 ==> s[i] == c
    ensures forall k :: i < k < |s| ==> s[k] != c
  {
    if s == [] then -1
    else if s[|s| - 1] == c then |s| - 1
    else RFind(s[..|s| - 1], c)
  }

  /** `PurePath(p).name`: everything after the last separator. */
  function Name(p: string): (r: string)
    ensures '/' !in r
    ensures EndsWithName(p, r)
  {
    p[RFind(p, '/') + 1..]
  }

  predicate EndsWithName(p: string, r: string) {
    |r| <= |p| && p[|p| - |r|..] == r
  }

  /** True when the name has an extension: a '.' that is neither its first nor its last character. */
  predicate HasSuffix(name: string) {
    var i := RFind(name, '.');
    0 < i < |name| - 1
  }

  /** `PurePath(p).suffix`: the final component's last extension, dot included, or "". */
  function Suffix(p: string): (r: string)
    ensures r == [] || (|r| >= 2 && r[0] == '.' && '.' !in r[1..])
  {
    var name := Name(p);
    var i := RFind(name, '.');
    if 0 < i < |name| - 1 then name[i..] else ""
  }

  /** `PurePath(p).stem`: the final component without its suffix. */
  function Stem(p: string): (r: string)
  {
    var name := Name(p);
    var i := RFind(name, '.');
    if 0 < i < |name| - 1 then name[..i] else name
  }

  /** The stem followed by the suffix gives back the final component. */
  lemma StemSuffixName(p: string)
    ensures Stem(p) + Suffix(p) == Name(p)
  {
    var name := Name(p);
    var i := RFind(name, '.');
    if 0 < i < |name| - 1 {
      assert name[..i] + name[i..] == name;
    }
  }
}

=== FILE: results.dfy ===
/** Failure-compatible result and option types shared by every module of the model,
    together with the error kinds the pipeline raises. A Python exception is modelled
    as a `Failure` carrying the kind of error that was raised. */
module Results {

  datatype Option<+T> = None | Some(value: T) {
    predicate IsFailure() {
      None?
    }

    function PropagateFailure<U>(): Option<U>
      requires None?
    {
      None
    }

    function Extract(): T
      requires Some?
    {
      value
    }

    function GetOr(default: T): T {
      match this
      case Some(v) => v
      case None => default
    }
  }

  /** The exceptions the modelled code raises, by kind. */
  datatype Error =
    | FileNotFound(path: string)             // FileNotFoundError of the loader
    | UnsupportedFileType(ext: string)       // ValueError for an unknown extension
    | ValidationError(field: string)         // a pydantic model rejected a field
    | UnknownChunkingMethod(name: string)    // ValueError of the chunk dispatcher
    | LoadError(message: string)             // ValueError wrapping a table-loading failure
    | LibraryError(message: string)          // anything raised inside a foreign library
    | AttributeError(name: string)           // an attribute the object does not have
    | KeyError(key: string)                  // a missing dictionary key
    | ConnectionError(message: string)       // the vector store could not be reached

  datatype Result<+T> = Success(value: T) | Failure(error: Error) {
    predicate IsFailure() {
      Failure?
    }

    function PropagateFailure<U>(): Result<U>
      requires Failure?
    {
      Failure(error)
    }

    function Extract(): T
      requires Success?
    {
      value
    }
  }

  /** Runs a sequence of steps that may each raise, in order: the first failure is
      what the caller sees, otherwise every value is kept. */
  function Sequence<T>(rs: seq<Result<T>>): (r: Result<seq<T>>)
    ensures r.Success? <==> forall i :: 0 <= i < |rs| ==> rs[i].Success?
    ensures r.Success? ==> |r.value| == |rs| && forall i :: 0 <= i < |rs| ==> rs[i] == Success(r.value[i])
    ensures r.Failure? ==> exists i :: 0 <= i < |rs| && rs[i] == Failure(r.error) && forall j :: 0 <= j < i ==> rs[j].Success?
  {
    if rs == [] then Success([])
    else
      match rs[0]
      case Failure(e) => Failure(e)
      case Success(v) =>
        match Sequence(rs[1..])
        case Failure(e) =>
          assert forall j :: 1 <= j < |rs| ==> rs[j] == rs[1..][j - 1];
          Failure(e)
        case Success(vs) =>
          assert forall j :: 1 <= j < |rs| ==> rs[j] == rs[1..][j - 1];
          Success([v] + vs)
  }
}

=== FILE: text.dfy ===
/** The string primitives the pipeline relies on, written out over `seq<char>`:
    Python's `str.strip()`, `len(str.split())`, `sep.join(...)`, `str(n)` for a
    natural number, ASCII lower-casing and the byte length of a UTF-8 encoding. */
module Text {

  /** Python's notion of whitespace for `str.strip()` and `str.split()`
      (the characters for which `str.isspace()` holds). */
  predicate IsSpace(c: char) {
    var n := c as int;
    || 0x09 <= n <= 0x0D
    || 0x1C <= n <= 0x20
    || n == 0x85 || n == 0xA0 || n == 0x1680
    || 0x2000 <= n <= 0x200A
    || n == 0x2028 || n == 0x2029 || n == 0x202F || n == 0x205F || n == 0x3000
  }

  predicate AllSpace(s: string) {
    forall k :: 0 <= k < |s| ==> IsSpace(s[k])
  }

  predicate EndsWith(s: string, suffix: string) {
    |suffix| <= |s| && s[|s| - |suffix|..] == suffix
  }

  /** Index of the first non-whitespace character (or |s|). */
  function Lead(s: string): (i: nat)
    ensures i <= |s|
    ensures forall k :: 0 <= k < i ==> IsSpace(s[k])
    ensures i < |s| ==> !IsSpace(s[i])
  {
    if |s| == 0 || !IsSpace(s[0]) then 0
    else
      var i := 1 + Lead(s[1..]);
      assert forall k :: 1 <= k < i ==> s[k] == s[1..][k - 1];
      i
  }

  /** One past the last non-whitespace character at or after `lo` (or `lo`). */
  function TrailEnd(s: string, lo: nat): (j: nat)
    requires lo <= |s|
    ensures lo <= j <= |s|
    ensures forall k :: j <= k < |s| ==> IsSpace(s[k])
    ensures j > lo ==> !IsSpace(s[j - 1])
    decreases |s|
  {
    if |s| == lo || !IsSpace(s[|s| - 1]) then |s|
    else TrailEnd(s[..|s| - 1], lo)
  }

  /** Python's `s.strip()`: the text with leading and trailing whitespace removed. */
  function Strip(s: string): (r: string)
    ensures |r| <= |s|
    ensures r == [] <==> AllSpace(s)
    ensures r != [] ==> !IsSpace(r[0]) && !IsSpace(r[|r| - 1])
    ensures exists lo, hi :: 0 <= lo <= hi <= |s| && r == s[lo..hi] && AllSpace(s[..lo]) && AllSpace(s[hi..])
  {
    var lo := Lead(s);
    var hi := TrailEnd(s, lo);
    assert lo < |s| ==> hi > lo;
    assert AllSpace(s[..lo]) && AllSpace(s[hi..]);
    s[lo..hi]
  }

  /** Stripping twice is stripping once. */
  lemma StripIdempotent(s: string)
    ensures Strip(Strip(s)) == Strip(s)
  {
    var r := Strip(s);
    if r != [] {
      assert Lead(r) == 0;
      assert TrailEnd(r, 0) == |r|;
    }
  }

  /** True when a word (a maximal run of non-whitespace) begins at position i. */
  predicate StartsWord(s: string, i: nat)
    requires i < |s|
  {
    !IsSpace(s[i]) && (i == 0 || IsSpace(s[i - 1]))
  }

  /** Python's `len(s.split())`: the number of maximal runs of non-whitespace. */
  function WordCount(s: string): (n: nat)
    ensures n == 0 <==> AllSpace(s)
    ensures n <= |s|
  {
    if |s| == 0 then 0
    else
      var init := s[..|s| - 1];
      assert forall k :: 0 <= k < |init| ==> init[k] == s[k];
      WordCount(init) + (if StartsWord(s, |s| - 1) then 1 else 0)
  }

  /** The positions at which a word begins. */
  function WordStarts(s: string): set<nat> {
    set i: nat | i < |s| && StartsWord(s, i)
  }

  /** Dropping the last character keeps every word start before it. */
  lemma StartsWordInit(s: string, i: nat)
    requires i < |s| - 1
    ensures StartsWord(s, i) == StartsWord(s[..|s| - 1], i)
  {
    assert s[i] == s[..|s| - 1][i];
    if i > 0 { assert s[i - 1] == s[..|s| - 1][i - 1]; }
  }

  /** The word starts of a text are those of all but its last character, plus the last
      position when a word begins there. */
  lemma WordStartsSnoc(s: string)
    requires |s| > 0
    ensures WordStarts(s) == WordStarts(s[..|s| - 1]) + (if StartsWord(s, |s| - 1) then {|s| - 1} else {})
  {
    var init := s[..|s| - 1];
    forall i: nat | i < |init|
      ensures StartsWord(s, i) == StartsWord(init, i)
    {
      StartsWordInit(s, i);
    }
  }

  /** `len(s.split())` counts the words: one per position where a word begins. */
  lemma {:induction false} WordCountCountsStarts(s: string)
    ensures WordCount(s) == |WordStarts(s)|
  {
    if |s| > 0 {
      var init := s[..|s| - 1];
      WordCountCountsStarts(init);
      WordStartsSnoc(s);
      assert |s| - 1 !in WordStarts(init);
    }
  }

  function TotalLength(xs: seq<string>): nat {
    if xs == [] then 0 else TotalLength(xs[..|xs| - 1]) + |xs[|xs| - 1]|
  }

  /** Where part `k` of `sep.join(xs)` begins: after the parts before it and one separator each. */
  function PartStart(sep: string, xs: seq<string>, k: nat): nat
    requires k <= |xs|
  {
    if k == 0 then 0 else PartStart(sep, xs, k - 1) + |xs[k - 1]| + |sep|
  }

  /** Part `k` of `xs` sits in `r` at `PartStart(k)`. */
  predicate PartAt(sep: string, xs: seq<string>, r: string, k: nat)
    requires k < |xs|
  {
    PartStart(sep, xs, k) + |xs[k]| <= |r| && r[PartStart(sep, xs, k)..PartStart(sep, xs, k) + |xs[k]|] == xs[k]
  }

  /** A separator follows part `k` of `xs` in `r`. */
  predicate SepAfter(sep: string, xs: seq<string>, r: string, k: nat)
    requires k < |xs|
  {
    PartStart(sep, xs, k) + |xs[k]| + |sep| <= |r| &&
    r[PartStart(sep, xs, k) + |xs[k]|..PartStart(sep, xs, k) + |xs[k]| + |sep|] == sep
  }

  /** `r` is `sep.join(xs)` spelled out: part `k` sits at `PartStart(k)`, a separator
      follows every part but the last, and nothing comes after the last part. */
  predicate JoinedAt(sep: string, xs: seq<string>, r: string) {
    if xs == [] then r == []
    else
      && |r| == PartStart(sep, xs, |xs| - 1) + |xs[|xs| - 1]|
      && (forall k :: 0 <= k < |xs| ==> PartAt(sep, xs, r, k))
      && (forall k :: 0 <= k < |xs| - 1 ==> SepAfter(sep, xs, r, k))
  }

  /** Parts of a prefix of the list begin where they begin in the whole list. */
  lemma {:induction false} PartStartPrefix(sep: string, xs: seq<string>, n: nat, k: nat)
    requires k <= n <= |xs|
    ensures PartStart(sep, xs[..n], k) == PartStart(sep, xs, k)
  {
    if k > 0 {
      PartStartPrefix(sep, xs, n, k - 1);
      assert xs[..n][k - 1] == xs[k - 1];
    }
  }

  /** The join ends right after its last part. */
  lemma {:induction false} JoinLength(sep: string, xs: seq<string>)
    requires xs != []
    ensures |Join(sep, xs)| == PartStart(sep, xs, |xs| - 1) + |xs[|xs| - 1]|
    decreases |xs|
  {
    if |xs| > 1 {
      var init := xs[..|xs| - 1];
      var n := |init|;
      JoinLength(sep, init);
      PartStartPrefix(sep, xs, n, n - 1);
      assert init[n - 1] == xs[n - 1];
    }
  }

  /** In the join of a list with at least two parts, everything before the last separator
      is the join of all but the last part. */
  lemma JoinSnoc(sep: string, xs: seq<string>)
    requires |xs| > 1
    ensures var init := xs[..|xs| - 1];
            var j := Join(sep, init);
            && Join(sep, xs) == j + sep + xs[|xs| - 1]
            && PartStart(sep, xs, |init|) == |j| + |sep|
  {
    var init := xs[..|xs| - 1];
    var n := |init|;
    JoinLength(sep, init);
    PartStartPrefix(sep, xs, n, n - 1);
    assert init[n - 1] == xs[n - 1];
  }

  /** The pieces of `x + y + z` sit where their lengths put them. */
  lemma Pieces<T>(x: seq<T>, y: seq<T>, z: seq<T>, a: nat, b: nat)
    requires a <= b <= |x|
    ensures (x + y + z)[a..b] == x[a..b]
    ensures (x + y + z)[|x|..|x| + |y|] == y
    ensures (x + y + z)[|x| + |y|..|x| + |y| + |z|] == z
  {
  }

  /** A part before the last keeps its place when the last part is joined on. */
  lemma PartKept(sep: string, xs: seq<string>, j: string, r: string, k: nat)
    requires |xs| > 1 && k < |xs| - 1
    requires r == j + sep + xs[|xs| - 1]
    requires PartAt(sep, xs[..|xs| - 1], j, k)
    ensures PartAt(sep, xs, r, k)
  {
    PartStartPrefix(sep, xs, |xs| - 1, k);
    var a := PartStart(sep, xs, k);
    Pieces(j, sep, xs[|xs| - 1], a, a + |xs[k]|);
    assert xs[..|xs| - 1][k] == xs[k];
  }

  /** The last part ends the join. */
  lemma JoinPartLast(sep: string, xs: seq<string>)
    requires |xs| > 1
    ensures PartAt(sep, xs, Join(sep, xs), |xs| - 1)
  {
    var j := Join(sep, xs[..|xs| - 1]);
    JoinSnoc(sep, xs);
    Pieces(j, sep, xs[|xs| - 1], 0, 0);
  }

  /** Part `k` of the join is `xs[k]`. */
  lemma {:induction false} JoinPartAt(sep: string, xs: seq<string>, k: nat)
    requires k < |xs|
    ensures PartAt(sep, xs, Join(sep, xs), k)
    decreases |xs|
  {
    if |xs| > 1 {
      if k < |xs| - 1 {
        JoinPartAt(sep, xs[..|xs| - 1], k);
        JoinSnoc(sep, xs);
        PartKept(sep, xs, Join(sep, xs[..|xs| - 1]), Join(sep, xs), k);
      } else {
        JoinPartLast(sep, xs);
      }
    }
  }

  /** A separator after a part before the last two keeps its place when the last part is
      joined on. */
  lemma SepKept(sep: string, xs: seq<string>, j: string, r: string, k: nat)
    requires |xs| > 2 && k < |xs| - 2
    requires r == j + sep + xs[|xs| - 1]
    requires SepAfter(sep, xs[..|xs| - 1], j, k)
    ensures SepAfter(sep, xs, r, k)
  {
    PartStartPrefix(sep, xs, |xs| - 1, k);
    assert xs[..|xs| - 1][k] == xs[k];
    var a := PartStart(sep, xs, k) + |xs[k]|;
    Pieces(j, sep, xs[|xs| - 1], a, a + |sep|);
  }

  /** The separator before the last part comes right after the join of the others. */
  lemma JoinSepLast(sep: string, xs: seq<string>)
    requires |xs| > 1
    ensures SepAfter(sep, xs, Join(sep, xs), |xs| - 2)
  {
    var init := xs[..|xs| - 1];
    var j := Join(sep, init);
    JoinSnoc(sep, xs);
    JoinLength(sep, init);
    PartStartPrefix(sep, xs, |init|, |init| - 1);
    assert init[|init| - 1] == xs[|xs| - 2];
    Pieces(j, sep, xs[|xs| - 1], 0, 0);
  }

  /** A separator follows every part of the join but the last. */
  lemma {:induction false} JoinSepAfter(sep: string, xs: seq<string>, k: nat)
    requires k < |xs| - 1
    ensures SepAfter(sep, xs, Join(sep, xs), k)
    decreases |xs|
  {
    if k < |xs| - 2 {
      JoinSepAfter(sep, xs[..|xs| - 1], k);
      JoinSnoc(sep, xs);
      SepKept(sep, xs, Join(sep, xs[..|xs| - 1]), Join(sep, xs), k);
    } else {
      JoinSepLast(sep, xs);
    }
  }

  /** `sep.join(xs)` places every part and every separator where `JoinedAt` says. */
  lemma JoinParts(sep: string, xs: seq<string>)
    ensures JoinedAt(sep, xs, Join(sep, xs))
  {
    if xs != [] {
      JoinLength(sep, xs);
      forall k | 0 <= k < |xs| ensures PartAt(sep, xs, Join(sep, xs), k) {
        JoinPartAt(sep, xs, k);
      }
      forall k | 0 <= k < |xs| - 1 ensures SepAfter(sep, xs, Join(sep, xs), k) {
        JoinSepAfter(sep, xs, k);
      }
    }
  }

  /** Cutting a laid-out join after part `|xs|-2` keeps each earlier part in place. */
  lemma HeadPartAt(sep: string, xs: seq<string>, r: string, cut: nat, k: nat)
    requires k < |xs| - 1 && PartAt(sep, xs, r, k)
    requires cut == PartStart(sep, xs, |xs| - 2) + |xs[|xs| - 2]| <= |r|
    ensures PartAt(sep, xs[..|xs| - 1], r[..cut], k)
  {
    PartStartPrefix(sep, xs, |xs| - 1, k);
    PartStartBelow(sep, xs, k, |xs| - 2);
    assert xs[..|xs| - 1][k] == xs[k];
  }

  /** Cutting a laid-out join after part `|xs|-2` keeps each earlier separator in place. */
  lemma HeadSepAfter(sep: string, xs: seq<string>, r: string, cut: nat, k: nat)
    requires k < |xs| - 2 && SepAfter(sep, xs, r, k)
    requires cut == PartStart(sep, xs, |xs| - 2) + |xs[|xs| - 2]| <= |r|
    ensures SepAfter(sep, xs[..|xs| - 1], r[..cut], k)
  {
    PartStartPrefix(sep, xs, |xs| - 1, k);
    PartStartBelow(sep, xs, k, |xs| - 2);
    assert xs[..|xs| - 1][k] == xs[k];
  }

  /** Everything before the last separator of a laid-out join lays out the other parts. */
  lemma JoinedAtInit(sep: string, xs: seq<string>, r: string)
    requires |xs| > 1 && JoinedAt(sep, xs, r)
    ensures var init := xs[..|xs| - 1];
            var cut := PartStart(sep, xs, |init| - 1) + |init[|init| - 1]|;
            && cut + |sep| <= |r|
            && JoinedAt(sep, init, r[..cut])
            && r == r[..cut] + sep + xs[|xs| - 1]
  {
    var init := xs[..|xs| - 1];
    var n := |init|;
    PartStartPrefix(sep, xs, n, n - 1);
    assert init[n - 1] == xs[n - 1];
    var cut := PartStart(sep, xs, n - 1) + |xs[n - 1]|;
    var head := r[..cut];
    assert SepAfter(sep, xs, r, n - 1) && PartAt(sep, xs, r, n);
    forall k | 0 <= k < n ensures PartAt(sep, init, head, k) {
      HeadPartAt(sep, xs, r, cut, k);
    }
    forall k | 0 <= k < n - 1 ensures SepAfter(sep, init, head, k) {
      HeadSepAfter(sep, xs, r, cut, k);
    }
    assert r == head + r[cut..cut + |sep|] + r[cut + |sep|..];
  }

  /** Part `k` ends, together with its separator, no later than part `m > k` begins. */
  lemma {:induction false} PartStartBelow(sep: string, xs: seq<string>, k: nat, m: nat)
    requires k <= m <= |xs|
    ensures PartStart(sep, xs, k) <= PartStart(sep, xs, m)
    ensures k < m ==> PartStart(sep, xs, k) + |xs[k]| + |sep| <= PartStart(sep, xs, m)
    decreases m
  {
    if k < m {
      PartStartBelow(sep, xs, k, m - 1);
    }
  }

  /** Conversely, the only string laid out as `JoinedAt` says is `sep.join(xs)`. */
  lemma {:induction false} JoinedAtIsJoin(sep: string, xs: seq<string>, r: string)
    requires JoinedAt(sep, xs, r)
    ensures r == Join(sep, xs)
    decreases |xs|
  {
    if |xs| == 1 {
      assert PartAt(sep, xs, r, 0);
      assert r == r[0..|xs[0]|];
    } else if |xs| > 1 {
      var init := xs[..|xs| - 1];
      var cut := PartStart(sep, xs, |init| - 1) + |init[|init| - 1]|;
      JoinedAtInit(sep, xs, r);
      JoinedAtIsJoin(sep, init, r[..cut]);
    }
  }

  /** Python's `sep.join(xs)`. */
  function Join(sep: string, xs: seq<string>): (r: string)
    ensures xs != [] ==> xs[0] <= r && EndsWith(r, xs[|xs| - 1])
    ensures xs != [] ==> |r| == TotalLength(xs) + (|xs| - 1) * |sep|
    ensures xs == [] ==> r == []
  {
    if |xs| == 0 then ""
    else if |xs| == 1 then xs[0]
    else
      var init := xs[..|xs| - 1];
      var last := xs[|xs| - 1];
      var j := Join(sep, init);
      var r := j + sep + last;
      assert init[0] == xs[0];
      assert TotalLength(xs) == TotalLength(init) + |last|;
      MulSucc(|init| - 1, |sep|);
      assert r[..|j|] == j;
      assert r[|r| - |last|..] == last;
      r
  }

  lemma MulSucc(a: nat, b: nat)
    ensures (a + 1) * b == a * b + b
  {
  }

  function Digit(d: nat): (c: char)
    requires d < 10
  {
    (48 + d) as char
  }

  /** Python's `str(n)` for a natural number: its decimal digits, no leading zeros. */
  function NatToString(n: nat): (s: string)
    ensures (n < 10) == (|s| == 1)
    ensures forall k :: 0 <= k < |s| ==> '0' <= s[k] <= '9'
    decreases n
  {
    if n < 10 then [Digit(n)] else NatToString(n / 10) + [Digit(n % 10)]
  }

  /** Distinct numbers print differently, so identifiers built from them are distinct. */
  lemma {:induction false} NatToStringInjective(a: nat, b: nat)
    ensures NatToString(a) == NatToString(b) ==> a == b
    decreases a
  {
    if NatToString(a) == NatToString(b) && a >= 10 && b >= 10 {
      var sa, sb := NatToString(a), NatToString(b);
      assert sa[|sa| - 1] == sb[|sb| - 1];
      assert a % 10 == b % 10;
      assert sa[..|sa| - 1] == NatToString(a / 10);
      assert sb[..|sb| - 1] == NatToString(b / 10);
      NatToStringInjective(a / 10, b / 10);
    }
  }

  function LowerChar(c: char): char {
    if 'A' <= c <= 'Z' then (c as int + 32) as char else c
  }

  /** `str.lower()` restricted to ASCII letters. */
  function Lower(s: string): (r: string)
    ensures |r| == |s|
  {
    seq(|s|, k requires 0 <= k < |s| => LowerChar(s[k]))
  }

  /** Removes every occurrence of `c` (Python's `s.replace(c, "")`). */
  function Without(s: string, c: char): (r: string)
    ensures c !in r
    ensures |r| <= |s|
  {
    if s == [] then []
    else (if s[0] == c then [] else [s[0]]) + Without(s[1..], c)
  }

  function CharUtf8Bytes(c: char): nat {
    var n := c as int;
    if n < 0x80 then 1 else if n < 0x800 then 2 else if n < 0x10000 then 3 else 4
  }

  /** `len(s.encode("utf-8"))`: every code point takes one to four bytes. */
  function Utf8Length(s: string): (n: nat)
    ensures |s| <= n <= 4 * |s|
  {
    if s == [] then 0 else CharUtf8Bytes(s[0]) + Utf8Length(s[1..])
  }
}

=== FILE: vector_store.dfy ===
/** The vector-store adapter: how chunk records and chunks become store documents with
    metadata, how they are submitted in batches of fifty, how search hits become ranked
    results, the bounded connection retry, and the statistics fallbacks. The store client
    is foreign and appears as functions: `add` says whether adding one batch succeeds,
    `search` returns the hits for a query or `None` when it raises. */
module VectorStore {
  import opened Results
  import opened Models
  import opened Text
  import Batching

  /** A store document (LangChain `Document`): page text and metadata. */
  datatype StoreDoc = StoreDoc(page_content: string, metadata: Metadata)

  /** A submitted document together with the id it is stored under. */
  datatype Entry = Entry(id: Json, doc: StoreDoc)

  const SubmitBatchSize: nat := 50

  // ---------------------------------------------------------------------------
  // Batched submission, skipping or aborting on a failed batch
  // ---------------------------------------------------------------------------

  /** What stays stored when each batch is submitted and a failed batch is skipped. */
  function Kept<T>(batches: seq<seq<T>>, add: seq<T> -> bool): seq<T> {
    if batches == [] then []
    else (if add(batches[0]) then batches[0] else []) + Kept(batches[1..], add)
  }

  lemma {:induction false} KeptAppend<T>(a: seq<seq<T>>, b: seq<seq<T>>, add: seq<T> -> bool)
    ensures Kept(a + b, add) == Kept(a, add) + Kept(b, add)
  {
    if a == [] {
      assert a + b == b;
    } else {
      assert (a + b)[1..] == a[1..] + b;
      KeptAppend(a[1..], b, add);
    }
  }

  /** When every batch is accepted, everything is kept. */
  lemma {:induction false} KeptAll<T>(batches: seq<seq<T>>, add: seq<T> -> bool)
    requires forall k :: 0 <= k < |batches| ==> add(batches[k])
    ensures Kept(batches, add) == Batching.Flatten(batches)
  {
    if batches != [] {
      KeptAll(batches[1..], add);
    }
  }

  /** `for i in range(0, len(docs), 50): try: add(...) except: continue`: every batch is
      submitted once, in order; a failed batch is lost and the later ones still go in. */
  method SubmitSkipping(entries: seq<Entry>, add: seq<Entry> -> bool, store: seq<Entry>) returns (stored: seq<Entry>)
    ensures stored == store + Kept(Batching.Slices(entries, SubmitBatchSize), add)
  {
    var batches := Batching.Slices(entries, SubmitBatchSize);
    stored := store;
    var k := 0;
    while k < |batches|
      invariant 0 <= k <= |batches|
      invariant stored == store + Kept(batches[..k], add)
    {
      assert batches[..k + 1] == batches[..k] + [batches[k]];
      KeptAppend(batches[..k], [batches[k]], add);
      assert Kept([batches[k]], add) == (if add(batches[k]) then batches[k] else []) + Kept([], add);
      if add(batches[k]) {
        stored := stored + batches[k];
      }
      k := k + 1;
    }
    assert batches[..k] == batches;
  }

  /** The number of batches accepted before the first failed one. */
  function FirstFailure<T>(batches: seq<seq<T>>, add: seq<T> -> bool): (k: nat)
    ensures k <= |batches|
    ensures forall j :: 0 <= j < k ==> add(batches[j])
    ensures k < |batches| ==> !add(batches[k])
  {
    if batches == [] || !add(batches[0]) then 0
    else 1 + FirstFailure(batches[1..], add)
  }

  /** A submission that may stop early: what is stored, and the error that stopped it. */
  datatype Submitted = Submitted(stored: seq<Entry>, error: Option<Error>)

  const AddFailed := LibraryError("add_documents")

  /** The same loop without a handler: the first failed batch raises, so it and every
      later batch are not stored, while the batches before it stay stored. */
  method SubmitAborting(entries: seq<Entry>, add: seq<Entry> -> bool, store: seq<Entry>) returns (out: Submitted)
    ensures var batches := Batching.Slices(entries, SubmitBatchSize);
            var k := FirstFailure(batches, add);
            && out.stored == store + Batching.Flatten(batches[..k])
            && (out.error.None? <==> k == |batches|)
            && (out.error.Some? ==> out.error.value == AddFailed)
  {
    var batches := Batching.Slices(entries, SubmitBatchSize);
    var stored := store;
    var k := 0;
    while k < |batches|
      invariant 0 <= k <= |batches|
      invariant forall j :: 0 <= j < k ==> add(batches[j])
      invariant stored == store + Batching.Flatten(batches[..k])
    {
      if !add(batches[k]) {
        FirstFailureAt(batches, add, k);
        return Submitted(stored, Some(AddFailed));
      }
      Batching.FlattenSnoc(batches, k);
      Batching.AppendAssoc(store, Batching.Flatten(batches[..k]), batches[k]);
      stored := stored + batches[k];
      k := k + 1;
    }
    FirstFailureAt(batches, add, k);
    assert batches[..k] == batches;
    return Submitted(stored, None);
  }

  /** The first failure is the position before which every batch is accepted and at which
      one is rejected (or the end). */
  lemma FirstFailureAt<T>(batches: seq<seq<T>>, add: seq<T> -> bool, k: nat)
    requires k <= |batches|
    requires forall j :: 0 <= j < k ==> add(batches[j])
    requires k < |batches| ==> !add(batches[k])
    ensures FirstFailure(batches, add) == k
  {
    var f := FirstFailure(batches, add);
    if f < k {
      assert false;
    } else if k < f {
      assert false;
    }
  }

  /** Both submissions agree up to the first failed batch: what the aborting one stores
      is a prefix of what the skipping one stores, the same as it when no batch fails,
      and with every batch accepted both store every entry, in order. */
  lemma {:induction false} AbortingIsPrefixOfSkipping(batches: seq<seq<Entry>>, add: seq<Entry> -> bool)
    ensures Batching.Flatten(batches[..FirstFailure(batches, add)]) <= Kept(batches, add)
    ensures FirstFailure(batches, add) == |batches| ==>
              Kept(batches, add) == Batching.Flatten(batches) == Batching.Flatten(batches[..FirstFailure(batches, add)])
  {
    var k := FirstFailure(batches, add);
    assert batches == batches[..k] + batches[k..];
    KeptAppend(batches[..k], batches[k..], add);
    KeptAll(batches[..k], add);
    if k == |batches| {
      assert batches[..k] == batches;
    }
  }

  /** Submitting with every batch accepted stores all entries in order. */
  lemma AllBatchesAccepted(entries: seq<Entry>, add: seq<Entry> -> bool)
    requires forall k :: 0 <= k < |Batching.Slices(entries, SubmitBatchSize)| ==> add(Batching.Slices(entries, SubmitBatchSize)[k])
    ensures Kept(Batching.Slices(entries, SubmitBatchSize), add) == entries
  {
    Batching.SlicesPartition(entries, SubmitBatchSize);
    KeptAll(Batching.Slices(entries, SubmitBatchSize), add);
  }

  lemma {:induction false} FlattenFullLength<T>(batches: seq<seq<T>>, k: nat, size: nat)
    requires k <= |batches|
    requires forall j :: 0 <= j < k ==> |batches[j]| == size
    ensures |Batching.Flatten(batches[..k])| == size * k
  {
    if k > 0 {
      FlattenFullLength(batches, k - 1, size);
      Batching.FlattenSnoc(batches, k - 1);
      assert size * k == size * (k - 1) + size;
    }
  }

  /** With only batch `k` rejected, what is kept is every batch before it and every
      batch after it. */
  lemma {:induction false} KeptSkipOne<T>(bs: seq<seq<T>>, add: seq<T> -> bool, k: nat)
    requires k < |bs|
    requires forall j :: 0 <= j < |bs| ==> (add(bs[j]) <==> j != k)
    ensures Kept(bs, add) == Batching.Flatten(bs[..k]) + Batching.Flatten(bs[k + 1..])
  {
    var tail := bs[1..];
    if k == 0 {
      assert forall j :: 0 <= j < |tail| ==> add(tail[j]) by {
        forall j | 0 <= j < |tail|
          ensures add(tail[j])
        {
          assert tail[j] == bs[j + 1];
        }
      }
      KeptAll(tail, add);
      assert bs[..0] == [];
    } else {
      assert forall j :: 0 <= j < |tail| ==> (add(tail[j]) <==> j != k - 1) by {
        forall j | 0 <= j < |tail|
          ensures add(tail[j]) <==> j != k - 1
        {
          assert tail[j] == bs[j + 1];
        }
      }
      KeptSkipOne(tail, add, k - 1);
      assert tail[..k - 1] == bs[..k][1..];
      assert tail[k..] == bs[k + 1..];
      Batching.AppendAssoc(bs[0], Batching.Flatten(tail[..k - 1]), Batching.Flatten(tail[k..]));
    }
  }

  /** A single failed batch, the `k`-th, loses exactly its own entries `50k ..` and
      nothing else when failures are skipped. */
  lemma OneFailedBatchLosesOnlyItself(entries: seq<Entry>, add: seq<Entry> -> bool, k: nat)
    requires k < |Batching.Slices(entries, SubmitBatchSize)|
    requires forall j :: 0 <= j < |Batching.Slices(entries, SubmitBatchSize)| ==>
               (add(Batching.Slices(entries, SubmitBatchSize)[j]) <==> j != k)
    ensures var s := SubmitBatchSize * k;
            var e := s + |Batching.Slices(entries, SubmitBatchSize)[k]|;
            s <= e <= |entries| &&
            Kept(Batching.Slices(entries, SubmitBatchSize), add) == entries[..s] + entries[e..]
  {
    var bs := Batching.Slices(entries, SubmitBatchSize);
    Batching.SlicesPartition(entries, SubmitBatchSize);
    KeptSkipOne(bs, add, k);
    Batching.FlattenAround(bs, k);
    FlattenFullLength(bs, k, SubmitBatchSize);
    var s := SubmitBatchSize * k;
    var pre, post := Batching.Flatten(bs[..k]), Batching.Flatten(bs[k + 1..]);
    assert entries == pre + (bs[k] + post);
    assert |pre| == s;
    assert entries[..s] == pre;
    assert entries[s + |bs[k]|..] == post;
  }

  // ---------------------------------------------------------------------------
  // insert_chunks: export records to store documents
  // ---------------------------------------------------------------------------

  /** An export record as a dictionary. */
  type ChunkDict = map<string, Json>

  /** `d.get(key, default)`. */
  function Get(d: ChunkDict, key: string, default: Json): (v: Json)
    ensures key in d ==> v == d[key]
    ensures key !in d ==> v == default
  {
    if key in d then d[key] else default
  }

  /** The cleaned metadata `insert_chunks` stores: eight keys, copied from the record
      under new names where the store's schema differs. */
  function InsertMetadata(d: ChunkDict): (m: Metadata)
    ensures m.Keys == {"chunk_id", "doc_id", "chunk_index", "chunking_method", "file_type", "word_count", "domain", "embedding_model"}
    ensures m["chunking_method"] == Get(d, "chunk_method", JNull)
    ensures m["file_type"] == Get(d, "content_type", JNull)
    ensures m["word_count"] == Get(d, "chunk_tokens", JInt(0))
    ensures m["chunk_id"] == Get(d, "chunk_id", JNull) && m["doc_id"] == Get(d, "doc_id", JNull)
    ensures m["chunk_index"] == Get(d, "chunk_index", JNull) && m["domain"] == Get(d, "domain", JNull)
    ensures m["embedding_model"] == Get(d, "embedding_model", JNull)
  {
    map[
      "chunk_id" := Get(d, "chunk_id", JNull),
      "doc_id" := Get(d, "doc_id", JNull),
      "chunk_index" := Get(d, "chunk_index", JNull),
      "chunking_method" := Get(d, "chunk_method", JNull),
      "file_type" := Get(d, "content_type", JNull),
      "word_count" := Get(d, "chunk_tokens", JInt(0)),
      "domain" := Get(d, "domain", JNull),
      "embedding_model" := Get(d, "embedding_model", JNull)]
  }

  /** The entry for one record: `chunk['chunk_text']` raises `KeyError` when the key is
      missing, and a store document only accepts text as its page content. */
  function InsertEntry(d: ChunkDict): (r: Result<Entry>)
    ensures "chunk_text" !in d ==> r == Failure(KeyError("chunk_text"))
    ensures r.Success? <==> "chunk_text" in d && d["chunk_text"].JStr?
    ensures r.Success? ==> r.value == Entry(Get(d, "chunk_id", JNull), StoreDoc(d["chunk_text"].s, InsertMetadata(d)))
  {
    if "chunk_text" !in d then Failure(KeyError("chunk_text"))
    else if !d["chunk_text"].JStr? then Failure(ValidationError("page_content"))
    else Success(Entry(Get(d, "chunk_id", JNull), StoreDoc(d["chunk_text"].s, InsertMetadata(d))))
  }

  /** `insert_chunks`: one entry per record, in order, built before anything is submitted
      (so a bad record stores nothing); then batches of fifty, skipping failed ones. */
  method InsertChunks(dicts: seq<ChunkDict>, add: seq<Entry> -> bool, store: seq<Entry>) returns (r: Result<seq<Entry>>)
    ensures r.Success? <==> forall i :: 0 <= i < |dicts| ==> InsertEntry(dicts[i]).Success?
    ensures r.Success? ==>
              var entries := Sequence(seq(|dicts|, i requires 0 <= i < |dicts| => InsertEntry(dicts[i]))).value;
              && |entries| == |dicts|
              && (forall i :: 0 <= i < |dicts| ==> entries[i].id == Get(dicts[i], "chunk_id", JNull))
              && r.value == store + Kept(Batching.Slices(entries, SubmitBatchSize), add)
  {
    var steps := seq(|dicts|, i requires 0 <= i < |dicts| => InsertEntry(dicts[i]));
    var built := Sequence(steps);
    if built.Failure? {
      return Failure(built.error);
    }
    forall i | 0 <= i < |dicts|
      ensures built.value[i].id == Get(dicts[i], "chunk_id", JNull)
    {
      assert steps[i] == Success(built.value[i]);
    }
    var stored := SubmitSkipping(built.value, add, store);
    return Success(stored);
  }

  // ---------------------------------------------------------------------------
  // store_chunks: chunks to store documents
  // ---------------------------------------------------------------------------

  /** The metadata `store_chunks` builds for a chunk as written: it reads the attribute
      `document_id`, which a `Chunk` does not have, so it always raises `AttributeError`. */
  function StoreEntryAsWritten(c: Chunk, doc: Document): (r: Result<Entry>)
    ensures r == Failure(AttributeError("document_id"))
  {
    match ChunkAttribute(c, "document_id")
    case Failure(e) => Failure(e)
    case Success(documentId) =>
      Success(Entry(JStr(c.id), StoreDoc(c.content, map[
        "chunk_id" := JStr(c.id),
        "document_id" := documentId,
        "chunk_index" := JInt(c.chunk_index),
        "chunking_method" := JStr(c.chunking_method.Value()),
        "file_type" := JStr(doc.file_type.Value()),
        "word_count" := JInt(WordCount(c.content))])))
  }

  /** The metadata `store_chunks` evidently means to build, with the document id read
      from the chunk's `doc_id`. */
  function StoreEntry(c: Chunk, doc: Document): (e: Entry)
    ensures e.id == JStr(c.id) && e.doc.page_content == c.content
    ensures e.doc.metadata.Keys == {"chunk_id", "document_id", "chunk_index", "chunking_method", "file_type", "word_count"}
    ensures e.doc.metadata["document_id"] == JStr(c.doc_id)
    ensures ChunkAttribute(c, "doc_id") == Success(e.doc.metadata["document_id"])
  {
    Entry(JStr(c.id), StoreDoc(c.content, map[
      "chunk_id" := JStr(c.id),
      "document_id" := JStr(c.doc_id),
      "chunk_index" := JInt(c.chunk_index),
      "chunking_method" := JStr(c.chunking_method.Value()),
      "file_type" := JStr(doc.file_type.Value()),
      "word_count" := JInt(WordCount(c.content))]))
  }

  /** `store_chunks` as written: building the first store document raises, so nothing is
      submitted; only an empty chunk list gets through. */
  method StoreChunksAsWritten(chunks: seq<Chunk>, doc: Document, add: seq<Entry> -> bool, store: seq<Entry>) returns (out: Submitted)
    ensures chunks == [] ==> out == Submitted(store, None)
    ensures chunks != [] ==> out == Submitted(store, Some(AttributeError("document_id")))
  {
    var built := Sequence(seq(|chunks|, i requires 0 <= i < |chunks| => StoreEntryAsWritten(chunks[i], doc)));
    if built.Failure? {
      return Submitted(store, Some(built.error));
    }
    assert |built.value| == |chunks|;
    out := SubmitAborting(built.value, add, store);
    assert built.value == [];
    assert Batching.Slices(built.value, SubmitBatchSize) == [];
  }

  /** `store_chunks` with the attribute corrected: one entry per chunk, in order, then
      batches of fifty with no handler, so the first failed batch stops the rest. */
  method StoreChunks(chunks: seq<Chunk>, doc: Document, add: seq<Entry> -> bool, store: seq<Entry>) returns (out: Submitted)
    ensures var entries := seq(|chunks|, i requires 0 <= i < |chunks| => StoreEntry(chunks[i], doc));
            var batches := Batching.Slices(entries, SubmitBatchSize);
            && out.stored == store + Batching.Flatten(batches[..FirstFailure(batches, add)])
            && (out.error.None? <==> FirstFailure(batches, add) == |batches|)
    ensures out.error.None? ==>
              |out.stored| == |store| + |chunks| &&
              forall i :: 0 <= i < |chunks| ==> out.stored[|store| + i] == StoreEntry(chunks[i], doc)
  {
    var entries := seq(|chunks|, i requires 0 <= i < |chunks| => StoreEntry(chunks[i], doc));
    out := SubmitAborting(entries, add, store);
    var batches := Batching.Slices(entries, SubmitBatchSize);
    if out.error.None? {
      Batching.SlicesPartition(entries, SubmitBatchSize);
      assert batches[..|batches|] == batches;
    }
  }

  // ---------------------------------------------------------------------------
  // search_by_text: hits to ranked results
  // ---------------------------------------------------------------------------

  /** One hit: the stored document and its relevance score. */
  type Hit = (StoreDoc, real)

  /** The `Chunk` built for the hit of rank `rank` as written: the document id is passed
      under the keyword `document_id`, which the model ignores, so the required `doc_id`
      is missing and validation always fails. */
  function HitChunkAsWritten(rank: nat, d: StoreDoc): (r: Result<Chunk>)
    ensures r.Failure?
  {
    ValidateChunk(Some(HitId(rank, d)), None, d.page_content, Some(HitIndex(d)), Some(HitMethod(d)), d.metadata)
  }

  /** The keyword values the search reads from a hit's metadata, with the defaults it
      falls back on: the chunk id (`chunk_<rank>`), the document id (""), the index (0)
      and the method value ("unknown", which names no method). */
  function HitId(rank: nat, d: StoreDoc): Json { Get(d.metadata, "chunk_id", JStr("chunk_" + NatToString(rank))) }
  function HitDocId(d: StoreDoc): Json { Get(d.metadata, "document_id", JStr("")) }
  function HitIndex(d: StoreDoc): Json { Get(d.metadata, "chunk_index", JInt(0)) }
  function HitMethod(d: StoreDoc): Json { Get(d.metadata, "chunking_method", JStr("unknown")) }

  /** The `Chunk` built for a hit when the document id is passed as `doc_id`. It validates
      exactly when the id and document id read as strings, the index as an integer, the
      method as a known method value, and the text is long enough; it then holds them. */
  function HitChunk(rank: nat, d: StoreDoc): (r: Result<Chunk>)
    ensures r.Success? <==>
              && HitId(rank, d).JStr? && HitDocId(d).JStr? && HitIndex(d).JInt?
              && HitMethod(d).JStr? && ParseChunkingMethod(HitMethod(d).s).Some?
              && |d.page_content| >= ChunkMinLength
    ensures r.Success? ==>
              && JStr(r.value.id) == HitId(rank, d) && JStr(r.value.doc_id) == HitDocId(d)
              && JInt(r.value.chunk_index) == HitIndex(d)
              && JStr(r.value.chunking_method.Value()) == HitMethod(d)
    ensures r.Success? ==> r.value.content == d.page_content && r.value.metadata == d.metadata
    ensures r.Success? ==> ValidChunk(r.value) && r.value.embedding == None
  {
    ValidateChunk(Some(HitId(rank, d)), Some(HitDocId(d)), d.page_content, Some(HitIndex(d)), Some(HitMethod(d)), d.metadata)
  }

  /** The ranked results for the hits, in the store's order, or `[]` as soon as building
      any one of them raises. */
  function Rank(hits: seq<Hit>, build: (nat, StoreDoc) -> Result<Chunk>): (r: seq<SearchResult>)
    ensures r != [] ==> |r| == |hits|
    ensures (forall i :: 0 <= i < |hits| ==> build(i + 1, hits[i].0).Success?) ==>
              |r| == |hits| &&
              forall i :: 0 <= i < |hits| ==>
                && r[i].rank == i + 1
                && r[i].chunk == build(i + 1, hits[i].0).value
                && r[i].similarity_score == hits[i].1
                && r[i].distance == 1.0 - hits[i].1
    ensures (exists i :: 0 <= i < |hits| && build(i + 1, hits[i].0).Failure?) ==> r == []
  {
    var steps := seq(|hits|, i requires 0 <= i < |hits| => build(i + 1, hits[i].0));
    var built := Sequence(steps);
    assert forall i :: 0 <= i < |hits| ==> steps[i] == build(i + 1, hits[i].0);
    match built
    case Failure(_) => []
    case Success(chunks) =>
      seq(|hits|, i requires 0 <= i < |hits| => SearchResult(chunks[i], hits[i].1, 1.0 - hits[i].1, i + 1))
  }

  /** `search_by_text` as written: whatever the store returns, the result is empty. */
  function SearchByTextAsWritten(query: string, limit: int, search: (string, int) -> Option<seq<Hit>>): (r: seq<SearchResult>)
    ensures r == []
  {
    match search(query, limit)
    case None => []
    case Some(hits) => Rank(hits, HitChunkAsWritten)
  }

  /** `search_by_text` with the document id passed as `doc_id`: ranks 1, 2, ... in the
      store's order, distance one minus similarity, and `[]` when the search raises or any
      hit cannot be turned into a chunk. */
  function SearchByText(query: string, limit: int, search: (string, int) -> Option<seq<Hit>>): (r: seq<SearchResult>)
    ensures search(query, limit).None? ==> r == []
    ensures search(query, limit).Some? && r != [] ==>
              var hits := search(query, limit).value;
              |r| == |hits| &&
              forall i :: 0 <= i < |hits| ==>
                && r[i].rank == i + 1
                && r[i].similarity_score == hits[i].1
                && r[i].distance == 1.0 - hits[i].1
                && r[i].chunk.content == hits[i].0.page_content
    ensures search(query, limit).Some? ==>
              var hits := search(query, limit).value;
              && ((forall i :: 0 <= i < |hits| ==> HitChunk(i + 1, hits[i].0).Success?) ==> |r| == |hits|)
              && (r == [] && hits != [] <==> exists i :: 0 <= i < |hits| && HitChunk(i + 1, hits[i].0).Failure?)
    ensures search(query, limit).Some? && r != [] ==>
              var hits := search(query, limit).value;
              forall i :: 0 <= i < |hits| ==>
                && r[i].chunk == HitChunk(i + 1, hits[i].0).value
                && JStr(r[i].chunk.doc_id) == HitDocId(hits[i].0)
                && JStr(r[i].chunk.id) == HitId(i + 1, hits[i].0)
  {
    match search(query, limit)
    case None => []
    case Some(hits) => Rank(hits, HitChunk)
  }

  /** A chunk stored by the corrected `store_chunks` and found again by the corrected
      search comes back with its identifier, document id, text, index and method. */
  lemma StoredChunkFoundAgain(c: Chunk, doc: Document, rank: nat)
    requires ValidChunk(c)
    ensures var found := HitChunk(rank, StoreEntry(c, doc).doc);
            && found.Success?
            && found.value.id == c.id && found.value.doc_id == c.doc_id
            && found.value.content == c.content && found.value.chunk_index == c.chunk_index
            && found.value.chunking_method == c.chunking_method
  {
    ChunkingMethodValues();
  }

  /** A chunk stored by the corrected `store_chunks` with a good score is dropped by the
      search as written: one hit, and the result is still empty. */
  lemma SearchAsWrittenDropsStoredChunk(c: Chunk, doc: Document, score: real)
    requires ValidChunk(c)
    ensures HitChunk(1, StoreEntry(c, doc).doc).Success?
    ensures SearchByTextAsWritten("q", 5, (q, k) => Some([(StoreEntry(c, doc).doc, score)])) == []
    ensures var found := SearchByText("q", 5, (q, k) => Some([(StoreEntry(c, doc).doc, score)]));
            && |found| == 1 && found[0].rank == 1 && found[0].similarity_score == score
            && found[0].chunk.id == c.id && found[0].chunk.doc_id == c.doc_id && found[0].chunk.content == c.content
  {
    StoredChunkFoundAgain(c, doc, 1);
    var hits := [(StoreEntry(c, doc).doc, score)];
    assert forall i :: 0 <= i < |hits| ==> HitChunk(i + 1, hits[i].0).Success?;
  }

  // ---------------------------------------------------------------------------
  // Connection retry and statistics
  // ---------------------------------------------------------------------------

  const MaxRetries: nat := 10
  const RetryDelay: nat := 3

  /** One connection attempt: it raised, or it returned and the address check gave `ready`. */
  datatype Attempt = Raised | Returned(ready: bool)

  /** `_wait_for_milvus`: try up to `maxRetries` times and return on the first attempt
      whose address check succeeds. A sleep of `delay` follows only an attempt that raised
      and is not the last; an attempt that returns without an address is retried at once.
      When no attempt succeeds, `ConnectionError` is raised. `sleeps` lists the attempts
      that were followed by a sleep. */
  method WaitForStore(attempt: nat -> Attempt, maxRetries: nat, delay: nat) returns (r: Result<bool>, sleeps: seq<nat>)
    ensures r.Success? <==> exists i :: 0 <= i < maxRetries && attempt(i) == Returned(true)
    ensures r.Success? ==> r.value
    ensures r.Failure? ==> r.error == ConnectionError("Milvus connection failed")
    ensures forall i: nat :: i in sleeps <==>
              && i + 1 < maxRetries && attempt(i).Raised?
              && forall j :: 0 <= j < i ==> attempt(j) != Returned(true)
    ensures forall a, b :: 0 <= a < b < |sleeps| ==> sleeps[a] < sleeps[b]
    ensures |sleeps| <= maxRetries - 1 || maxRetries == 0
  {
    sleeps := [];
    var i := 0;
    while i < maxRetries
      invariant 0 <= i <= maxRetries
      invariant forall j :: 0 <= j < i ==> attempt(j) != Returned(true)
      invariant forall j: nat :: j in sleeps <==> j < i && j + 1 < maxRetries && attempt(j).Raised?
      invariant forall a, b :: 0 <= a < b < |sleeps| ==> sleeps[a] < sleeps[b]
      invariant forall k :: 0 <= k < |sleeps| ==> sleeps[k] < i && sleeps[k] + 1 < maxRetries
      invariant |sleeps| <= i && (|sleeps| <= maxRetries - 1 || maxRetries == 0)
    {
      match attempt(i) {
        case Returned(ready) =>
          if ready {
            return Success(true), sleeps;
          }
        case Raised =>
          if i < maxRetries - 1 {
            sleeps := sleeps + [i];
          }
      }
      i := i + 1;
    }
    r := Failure(ConnectionError("Milvus connection failed"));
  }

  /** What the statistics query finds once connected. */
  datatype Probe = ProbeRaised(message: string) | NoCollection | Collection(entities: nat)

  /** `get_stats`: the entity count when the collection exists; 0 when it is absent;
      and 0 with `str(e)` as the error when connecting or querying raises. `connectError`
      is `None` when `get_client` returned and `Some(str(e))` when it raised; a failed
      `WaitForStore` gives `Some("Milvus connection failed")`. */
  function GetStats(connectError: Option<string>, probe: Probe): (stats: Metadata)
    ensures "total_chunks" in stats && "status" in stats
    ensures stats["total_chunks"] == (if connectError.None? && probe.Collection? then JInt(probe.entities) else JInt(0))
    ensures stats["status"] == JStr("ready") <==> connectError.None? && probe.Collection?
    ensures "error" in stats <==> connectError.Some? || probe.ProbeRaised?
    ensures connectError.Some? ==> stats["error"] == JStr(connectError.value)
    ensures connectError.None? && probe.ProbeRaised? ==> stats["error"] == JStr(probe.message)
  {
    match connectError
    case Some(message) => map["error" := JStr(message), "status" := JStr("error"), "total_chunks" := JInt(0)]
    case None =>
      match probe
      case ProbeRaised(message) => map["error" := JStr(message), "status" := JStr("error"), "total_chunks" := JInt(0)]
      case NoCollection => map["total_chunks" := JInt(0), "status" := JStr("no_collection")]
      case Collection(n) => map["total_chunks" := JInt(n), "status" := JStr("ready")]
  }
}
